=== FILE: README.md ===
# Robot skeleton, playback and SMPL-X re-layout — a Dafny model

This project models the algorithmic core of the Gen2Humanoid viewer and
converter:

- **Skeleton flattening** (`KinematicsModelLite._parse`): a depth-first,
  pre-order walk of an MJCF body tree that fills parallel arrays of names,
  parent indices, local offsets, local orientations, joint axes and DOF
  counts, plus `num_dof`.
- **Attribute helpers** (`parse_floats`, `quat_wxyz_to_xyzw`, `np.roll`).
- **Forward kinematics** (`KinematicsModelLite.forward`) over an abstract
  rotation type: the root passes through, bodies are processed in index
  order, DOF columns go to the one-DOF bodies from body 1 on, orientation is
  parent·local·joint and position is parent position plus the parent's
  rotation applied to the local offset.
- **Visual geometry selection** (`load_robot_visual_geoms`): the mesh asset
  table, the `type="mesh"` filter, and the body-keyed geometry map.
- **Playback** (`MJCFViserPlayer`): `load_anim`, `get_frame`,
  `reset_cur_frame` and the `play` cursor loop.
- **SMPL-X re-layout** (`convert_to_smplx`): each pose row re-laid into a
  165-wide row, then sliced into the named fields.

Modules, one per concern: `Wrappers` (Option/Result and the error kinds the
code raises), `Attributes`, `Mjcf` (the description tree and its pre-order
listing `PreOrder`, the reference order both tree walks are proved against),
`Kinematics`, `ForwardKinematics`, `VisualGeoms`, `Player`, `VisualBinding`
(how visual nodes line up with kinematic names) and `ConvertSmpl`.

Exceptions the Python code raises are modelled as `Err` results: wrong
attribute arity (`assert arr.size == n`), absent required attributes and
elements, unknown mesh names, numpy shape mismatches, frames outside the
loaded animation, division by a zero frame rate, a motion with no frames, and a negative
`time.sleep` duration.

Where the code behaves in ways a reader may not expect, the model follows the code:

- `load_anim` assigns `self.fps` before `forward` runs, so a load that fails
  still changes `fps` (`Player.LoadAnim`); the load is not atomic. A motion
  with no frames passes `forward` and then fails in the final
  `reshape(pos.shape[0], -1, 4)`, again after `fps` has changed.
- `get_frame` accepts negative frames (numpy counts them from the end) and
  raises only for frames outside `[-T, T)`, and only when some body has a
  visual node (`Player.GetFrame`).
- `num_dof` counts a joint on body 0, but `forward` never reads a column for
  body 0 (`ForwardKinematics.NumDofSplitsAtRoot`).
- Shape mismatches are not checked up front; they surface as numpy errors,
  modelled as `DimensionMismatch` / `BroadcastMismatch`.
- `convert_to_smplx` accepts a 67-column input: the one-wide slice `66:156`
  is broadcast over the whole hand block (`ConvertSmpl.ConvertRow`). It also
  divides by `frame_rate` before overwriting the quotient, so a zero frame
  rate raises, and `mocap_time_length` ends up as `len(betas)`.

## Model

| member | source | states |
|---|---|---|
| Attributes.ParseFloats | g2h/visualise/robot_viser.py:16-21 | An absent attribute yields the default; a present one is accepted exactly when it has `n` values and is then returned unchanged; any other count fails; with a default of length `n` every success has length `n`. |
| Attributes.QuatWxyzToXyzw | g2h/visualise/robot_viser.py:13-14 | The result has four components: the scalar `q[0]` moves to the last place and `q[1..3]` move one place forward. |
| Attributes.Roll | g2h/visualise/robot_viser.py:224 | `np.roll(a, 1)`: same length, and the element at `k` moves to `(k + 1) mod n`. |
| Attributes.RollUndoesWxyzToXyzw | g2h/visualise/robot_viser.py:13-14 | For every 4-element quaternion, rolling the scalar-last form gives back the scalar-first one the description declared. |
| Attributes.WxyzToXyzwUndoesRoll | g2h/visualise/robot_viser.py:224 | The converse: reordering a rolled quaternion gives it back, so the two layouts are in bijection. |
| Attributes.Decimal | g2h/visualise/robot_viser.py:108 | The rendering of `idx` in `body_{idx}` is Python's `str(idx)`: a non-empty string of decimal digits, `"0"` for zero and with no leading zero otherwise. |
| Attributes.DecimalRoundTrip | g2h/visualise/robot_viser.py:108 | Reading the decimal rendering back gives the number, so different indices give different strings. |
| Mjcf.RootBody | g2h/visualise/robot_viser.py:103-104 | The walk starts at the first `<body>` of `<worldbody>`; it fails exactly when there is no `<worldbody>` or it has no body. |
| Mjcf.PreOrder | g2h/visualise/robot_viser.py:106-130 | The reference visiting order: a body comes first, before the pre-order of each child subtree in document order. |
| Mjcf.KinematicName | g2h/visualise/robot_viser.py:108 | A body's name is its `name` attribute, or `body_` followed by its pre-order index when it has none. |
| Mjcf.DefaultNamesDistinct | g2h/visualise/robot_viser.py:108 | Two unnamed bodies at different indices never get the same default name. |
| Mjcf.TreeParents | g2h/visualise/robot_viser.py:106-130 | The reference parent listing: one entry per body of the pre-order, the subtree's root first with the parent it was given, each child subtree under the index of the body that holds it. |
| Mjcf.ChildPointsToParent | g2h/visualise/robot_viser.py:127-128 | Child `i` of a body sits in the body's pre-order at its offset, and its entry in the parent listing is the body's own index. |
| Kinematics.JointOf | g2h/visualise/robot_viser.py:118-125 | A body with exactly one joint gets one DOF and an axis: the parsed `axis` when present, z otherwise; zero or several joints give zero DOF and no axis; only the single joint's axis arity can fail. |
| Kinematics.AppendBody | g2h/visualise/robot_viser.py:107-125 | Appending a body keeps the arrays consistent and extends them by one entry: the body's name, the given parent, the parsed `pos` (zero when absent), the parsed `quat` reordered scalar-last (identity `[0,0,0,1]` when absent), and the joint's axis and DOF; it fails exactly when an attribute has the wrong arity. |
| Kinematics.VisitBody | g2h/visualise/robot_viser.py:106-128 | `dfs` succeeds exactly when every body of the subtree has well-formed attributes; it keeps the parent-precedes-child invariant and equal array lengths, leaves earlier entries alone and appends one entry per body of the subtree. |
| Kinematics.VisitBodyLists | g2h/visualise/robot_viser.py:106-128 | The entries `dfs` appends are those of the subtree's bodies in pre-order: entry `base + k` holds body `k`'s name, its parent in the tree, its parsed offset and orientation, and its joint axis and DOF. |
| Kinematics.VisitChildren | g2h/visualise/robot_viser.py:127-128 | The same for the child loop: it succeeds exactly when the remaining children's subtrees are well formed and appends one entry per body of them. |
| Kinematics.VisitChildrenLists | g2h/visualise/robot_viser.py:127-128 | The children's subtrees are appended one after another in document order, every child under the index of the body that holds it. |
| Kinematics.Parse | g2h/visualise/robot_viser.py:100-130 | A parsed skeleton is well formed (`parents[0] = -1`, `0 <= parents[i] < i`, all six arrays equally long, axis present exactly for one-DOF bodies), has one entry per body of the tree in pre-order, entry `k` holding the `k`-th body's name, tree parent, parsed offset and orientation, axis and DOF; parsing fails exactly on a missing root or a malformed attribute. |
| Kinematics.SumCountsOnes | g2h/visualise/robot_viser.py:98 | A sum of zero/one DOF counts is the number of ones. |
| Kinematics.NumDofCountsOneJointBodies | g2h/visualise/robot_viser.py:98 | `num_dof` is the number of bodies of the tree with exactly one `<joint>` child. |
| ForwardKinematics.DofColumnStep | g2h/visualise/robot_viser.py:147-150 | The column counter advances by one exactly past a one-DOF body. |
| ForwardKinematics.DofColumnsIncrease | g2h/visualise/robot_viser.py:141-150 | One-DOF bodies read strictly increasing columns in body order, all below the number of columns a frame uses. |
| ForwardKinematics.DofColumnsCovered | g2h/visualise/robot_viser.py:141-150 | Columns are used without gaps: each column below the counter is read by some earlier one-DOF body. |
| ForwardKinematics.NumDofSplitsAtRoot | g2h/visualise/robot_viser.py:98 | `num_dof` equals body 0's DOF plus the columns `forward` reads, so a joint on body 0 is counted but never consumes a column. |
| ForwardKinematics.ExtendFrame | g2h/visualise/robot_viser.py:143-161 | One loop iteration leaves earlier bodies untouched, advances the column counter to its reference value and gives body `i` the orientation parent·local·joint and the position parent + parent-rotation(local offset). |
| ForwardKinematics.BodyRulesStable | g2h/visualise/robot_viser.py:152-161 | Computing later bodies never changes what was established for earlier ones. |
| ForwardKinematics.FramePrefix | g2h/visualise/robot_viser.py:141-161 | After the loop over bodies `1..n-1`, body 0 holds the root pose, every other body obeys the composition rule with the joint angle from its reference column, and the counter equals the number of one-DOF bodies among `1..n-1`. |
| ForwardKinematics.Forward | g2h/visualise/robot_viser.py:132-163 | For every frame: body 0 is the root position and rotation; each later body obeys the composition rule (joint = identity for zero DOF); it fails exactly when the root rotations (one four-component row per frame) or the angle rows do not match the frame count. |
| VisualGeoms.DeclAsset | g2h/visualise/robot_viser.py:40-44 | A `<mesh>` declaration needs `name` and `file`; its scale is the three parsed values when present, (1,1,1) otherwise, and any other arity fails. |
| VisualGeoms.AssetTable | g2h/visualise/robot_viser.py:38-44 | The asset table holds exactly the declared names and fails exactly when some declaration is malformed. |
| VisualGeoms.AssetTableLastWins | g2h/visualise/robot_viser.py:44 | A name declared several times maps to its last declaration. |
| VisualGeoms.MeshGeoms | g2h/visualise/robot_viser.py:52-54 | Only geoms with `type == "mesh"` are kept, and every such geom is kept. |
| VisualGeoms.MeshGeomsCounts | g2h/visualise/robot_viser.py:52-54 | Each mesh geom is kept as many times as it occurs, and nothing else is. |
| VisualGeoms.MeshGeomsConcat | g2h/visualise/robot_viser.py:52-54 | Filtering keeps document order: the filter of a concatenation is the concatenation of the filters. |
| VisualGeoms.LoadGeom | g2h/visualise/robot_viser.py:56-74 | A mesh geom needs a `mesh` attribute naming a declared asset and well-formed `pos`, `quat`, `rgba`; a present `pos` and `rgba` are kept and a present `quat` is reordered scalar-last; absent ones default to zero offset, identity orientation and grey `(0.7,0.7,0.7,1)`. |
| VisualGeoms.LoadGeoms | g2h/visualise/robot_viser.py:50-76 | A body yields one mesh per mesh geom, in order, each with its geom's asset; non-mesh geoms are never inspected. |
| VisualGeoms.LoadGeomsAt | g2h/visualise/robot_viser.py:52-76 | Mesh `k` of a body is exactly what the loop body makes of its `k`-th mesh geom. |
| VisualGeoms.GeomKey | g2h/visualise/robot_viser.py:49 | The geometry map key of a body: its `name` attribute when it has one; for an unnamed body `""` under the source's scheme (line 49) and the kinematic name `body_{idx}` (line 108) under the corrected one, so the two schemes differ exactly on unnamed bodies. |
| VisualGeoms.VisitGeoms | g2h/visualise/robot_viser.py:48-82 | The walk fails exactly when some mesh geom of the subtree is malformed, advances the pre-order index by the subtree size, and never stores an empty list. |
| VisualGeoms.VisitGeomsFrom | g2h/visualise/robot_viser.py:81-82 | The same for the child loop. |
| VisualGeoms.MeshKeysMembers | g2h/visualise/robot_viser.py:78-79 | A key is recorded exactly when some body with at least one mesh geom has that key. |
| VisualGeoms.VisitGeomsKeys | g2h/visualise/robot_viser.py:78-82 | The walk adds exactly one key per body with a mesh geom; a body without one never appears. |
| VisualGeoms.FoldGeomsConcat | g2h/visualise/robot_viser.py:78-82 | The left-to-right pass over a pre-order listing can be split at any point: the second part continues from the table the first part built. |
| VisualGeoms.VisitGeomsFold | g2h/visualise/robot_viser.py:48-82 | The recursive `visit` builds the same table as a left-to-right pass over the pre-order listing of the subtree. |
| VisualGeoms.FoldGeomsKeys | g2h/visualise/robot_viser.py:78-79 | The pass adds exactly the keys of the bodies with mesh geoms. |
| VisualGeoms.FoldGeomsKeeps | g2h/visualise/robot_viser.py:78-79 | A key that no later body with a mesh geom has keeps its value. |
| VisualGeoms.FoldGeomsLastWins | g2h/visualise/robot_viser.py:78-79 | The value under a key is the meshes of the last body in pre-order that has mesh geoms and that key. |
| VisualGeoms.LoadVisualGeoms | g2h/visualise/robot_viser.py:30-86 | The geometry map's keys are the keys of the bodies with mesh geoms, no value is empty, and loading fails exactly on a missing `<asset>`, a malformed declaration, a missing root or a malformed mesh geom; the map is the left-to-right pass over the tree's pre-order. |
| VisualGeoms.LoadVisualGeomsLastWins | g2h/visualise/robot_viser.py:30-86 | For every body with mesh geoms that is the last in pre-order with its key, the map holds exactly that body's meshes under the key. |
| Player.NewPlayer | g2h/visualise/robot_viser.py:166-182 | A new player holds the parsed skeleton, one visual node per geometry-map key, no poses, `T = 0`, `fps = 30` and cursor 0. |
| Player.ToViewer | g2h/visualise/robot_viser.py:207-210 | The up-axis step keeps positions and the shape of the orientation buffer, and replaces every orientation by its `from_quat`/`as_quat` round trip. |
| Player.LoadAnim | g2h/visualise/robot_viser.py:196-215 | `fps` is always replaced; it succeeds exactly when the motion's shapes agree and it has at least one frame (an empty motion fails in the final `reshape`); on success `T` is the frame count, the cursor is 0 and the stored poses are those of `forward` after the up-axis step; on failure nothing but `fps` changes; the player invariant is kept. |
| Player.FrameUpdates | g2h/visualise/robot_viser.py:221-224 | Exactly the bodies whose kinematic name has a visual node are updated, each with its position and its rolled (scalar-first) orientation; a later body of the same name wins. |
| Player.GetFrame | g2h/visualise/robot_viser.py:217-224 | `get_frame` uses the cursor when no frame is given, succeeds exactly when no body has a node or the frame is in `[-T, T)` of a loaded animation, and updates exactly the bodies with nodes from the requested (wrapped) row. |
| Player.GetFrameCount | g2h/visualise/robot_viser.py:226-227 | `get_frame_count` is 0 before any animation is loaded and otherwise the number of loaded frames. |
| Player.LoadAnimFrameCount | g2h/visualise/robot_viser.py:213-227 | After a successful `load_anim` the frame count is the motion's length, which is positive; after a failed one it is unchanged. |
| Player.ResetCurFrame | g2h/visualise/robot_viser.py:232-233 | The cursor becomes 0 and nothing else changes. |
| Player.Step | g2h/visualise/robot_viser.py:243-251 | One pass shows the cursor's frame; looping, the cursor advances modulo `T` and the loop continues; otherwise it advances by one and the loop stops exactly when it reaches `T`; a pass that goes on fails exactly when the pause is negative. |
| Player.PauseSign | g2h/visualise/robot_viser.py:242 | The pause `1.0 / fps` is non-negative exactly when the frame rate is positive. |
| Player.PlayOnceFrom | g2h/visualise/robot_viser.py:243-251 | The loop of `play(loop=False)` from a cursor below `T` shows frames `cur, …, T-1` in order and leaves the cursor at `T`, changing nothing else; it fails exactly when the pause is negative and more than one frame remains. |
| Player.PlayOnce | g2h/visualise/robot_viser.py:241-251 | `play(loop=False)` fails at once on a zero frame rate; from a cursor below `T` it succeeds exactly when the frame rate is positive or one frame remains, shows frames `cur, …, T-1` in order and leaves the cursor at `T`, changing nothing else; from a cursor at or past `T` it fails when any body has a node. |
| Player.PlayLoopFrom | g2h/visualise/robot_viser.py:243-251 | The `k`-th pass of the looping loop shows frame `(cur + k) mod T`, so the cursor stays in `[0, T)` and nothing but the cursor changes; any pass fails when the pause is negative. |
| Player.PlayLoop | g2h/visualise/robot_viser.py:241-251 | `play(loop=True)` fails at once on a zero frame rate and on its first pass for a negative one; otherwise its `k`-th pass shows frame `(cur + k) mod T`, and only the cursor changes. |
| VisualBinding.UnnamedMeshBodyNeverUpdated | g2h/visualise/robot_viser.py:49 | As written, an unnamed body with meshes gets a node keyed `""`, and (when no body is explicitly named `""`) no `get_frame` call ever updates it. |
| VisualBinding.ExampleHasUnupdatedNode | g2h/visualise/robot_viser.py:108 | A concrete description where the kinematic names are `pelvis`, `body_1` and the only visual node is `""`. |
| VisualBinding.CorrectedKeysAreMeshBodies | g2h/visualise/robot_viser.py:78-79 | Keyed by kinematic name, the geometry keys are exactly the names of the bodies with mesh geoms. |
| VisualBinding.EveryMeshBodyUpdated | g2h/visualise/robot_viser.py:221-224 | Keyed by kinematic name, every successful `get_frame` updates every visual node. |
| ConvertSmpl.Squeeze | g2h/convert_smpl.py:25 | `squeeze()` removes exactly the axes of length one and keeps the element count. |
| ConvertSmpl.SqueezeCounts | g2h/convert_smpl.py:25 | Every other axis length is kept as many times as it occurs, and no axis of length one is. |
| ConvertSmpl.SqueezeConcat | g2h/convert_smpl.py:25 | The remaining axes keep their order: squeezing a concatenation squeezes each part. |
| ConvertSmpl.WidthAcceptedExactly | g2h/convert_smpl.py:12-17 | The three slice assignments accept a row exactly when it has at least 156 values or exactly 67; every other width is a numpy broadcast error. |
| ConvertSmpl.RowBlocks | g2h/convert_smpl.py:27-30 | The root, body and hand slices of an output row, followed by the nine zeros of the jaw and eye block, are the whole row. |
| ConvertSmpl.CopySlice | g2h/convert_smpl.py:12-17 | A slice assignment changes only `[lo, hi)`, copying the source there or broadcasting its single value. |
| ConvertSmpl.ConvertRow | g2h/convert_smpl.py:10-19 | An output row has 165 values, its last nine are zero, and its first 156 equal the input's when the input has at least 156 columns. |
| ConvertSmpl.StoredGender | g2h/convert_smpl.py:34 | A one-element gender array is unwrapped to its item; any other shape is kept as is. |
| ConvertSmpl.ConvertToSmplx | g2h/convert_smpl.py:3-42 | With `frame_rate` 30 by default, succeeds exactly for 156+ or 67 input columns, a non-zero frame rate and `betas` that squeeze to at least one axis; `poses` keeps the row count, each row the re-laid input row (165 columns, zero tail, copied head); `root_orient`, `pose_body`, `pose_hand` plus nine zeros rebuild each row; jaw and eye poses are zero; `trans` passes through; the frame rate is `[frame_rate]`; `mocap_time_length` is the first squeezed `betas` axis. |
| ConvertSmpl.TimeLengthCountsBetas | g2h/convert_smpl.py:36-37 | For `betas` of shape `(n,)` or `(1, n)`, `mocap_time_length` is the number of shape coefficients, not the duration `T / frame_rate`. |

## Findings

| source | as written | input that shows it | evidently intended | confidence | as-written member | corrected member |
|---|---|---|---|---|---|---|
| g2h/visualise/robot_viser.py:49 | The geometry map keys a body by its `name` attribute or `""`, while the kinematic model and `get_frame` name an unnamed body `body_{idx}` (line 108). | A root named `pelvis` with one unnamed child that carries a mesh geom: the only visual node is `""`, the kinematic names are `pelvis`, `body_1`, and `get_frame` never moves the child's mesh. | Key the geometry map by the same name the kinematic model uses, so every mesh follows its body. | medium, not executed | VisualBinding.UnnamedMeshBodyNeverUpdated | VisualBinding.EveryMeshBodyUpdated |

The geometry walk takes the keying as a parameter (`VisualGeoms.KeyScheme`):
`NameOrEmpty` reproduces line 49, so `NewPlayer(doc, NameOrEmpty)` is the
program as written; `KinematicNames` is the corrected keying, and
`VisualBinding.EveryMeshBodyUpdated` proves that a player built with it
updates every visual node.

## Left out

- Floating point: `float32`/`float64` values are reals, and casts such as `astype(np.float64)` are no-ops.
- Rotation arithmetic: scipy `Rotation` is an abstract type with `from_quat`, `as_quat`, product, `apply` and `from_rotvec` as parameters (`ForwardKinematics.RotationOps`). No algebraic law is assumed, so quaternion norm drift and the zero-angle translation chain are not stated.
- Player.ToViewer: `from_matrix` after `as_matrix` is taken as the identity on rotations; scipy may return the opposite-sign quaternion for the same rotation.
- The up-axis remap multiplies by `T_ZUP_TO_YUP`, the identity matrix. Positions are kept as they are, and each orientation goes through `from_quat`/`as_quat` once more (`Player.ToViewer`).
- RGBA-to-byte colour truncation (lines 72-74): a float cast. `VisualMesh` keeps the RGBA values.
- Mesh files: loading, vertex scaling, `fix_normals`, `apply_transform` and path resolution go through trimesh and the file system. A `VisualMesh` records the asset, offset, orientation and colour that would be applied. A missing mesh file is not modelled.
- XML parsing and `np.fromstring`: the description is a `Document` value, and every numeric attribute arrives already split into numbers.
- Pickle and npz I/O, missing keys in the motion record, `print`: file I/O.
- Viewer calls (`add_frame`, `add_mesh_trimesh`, setting `.position`, `.wxyz`, `.scale`), `set_scale`, `set_position` and `get_cur_frame`: UI side effects and plain getters. `get_frame` returns the poses it would push.
- `time.sleep` pacing: the duration of a pause is timing and is not modelled, but a negative pause raises as it does in Python. `play(loop=True)` never returns, so `Player.PlayLoop` observes its first `n` passes.
- Player.Step: a pass that fails on a negative pause has already advanced `cur_frame` in the source; the error result does not carry that state, as for the errors of `get_frame`.
- ForwardKinematics.Forward: numpy and scipy broadcasting is not modelled: a one-row `root_rot` or `dof_pos` stretched across all frames, and a one-wide `root_rot` (shape `(N, 1)`) stretched across the four components of `rot[:, 0]`. Such inputs are reported as `DimensionMismatch`, and root positions are 3-vectors by type.
- Zero-norm quaternions: scipy's `from_quat` raises on a zero-norm quaternion (in `forward`, in the mesh transform and in `load_anim`). The abstract `RotationOps` are total, so the model does not raise there.
- The other files (`smplx_viser.py`, `motion_player.py`, `pipeline.py`, `visualise.py`, `utils.py`, `config.py`) are not part of this model. They hold the opaque body-model wrapper, the viewer driver loop, subprocess calls, the CLI and path constants.

=== FILE: attributes.dfy ===
/** Numeric attribute helpers of the robot viewer: `parse_floats`, the
    quaternion layout change `quat_wxyz_to_xyzw`, its inverse `np.roll(q, 1)`,
    fixed-size 3-vectors, and the decimal rendering used for default body names.

    An attribute value is modelled after whitespace tokenisation: `None` when
    the XML attribute is absent, otherwise the sequence of numbers it holds. */
module Attributes {
  import opened Wrappers

  /** A three-component vector (a numpy array of shape (3,)). */
  datatype Vec3 = Vec3(x: real, y: real, z: real)

  function Add(a: Vec3, b: Vec3): Vec3 {
    Vec3(a.x + b.x, a.y + b.y, a.z + b.z)
  }

  function Scale(a: Vec3, k: real): Vec3 {
    Vec3(a.x * k, a.y * k, a.z * k)
  }

  function ToVec3(a: seq<real>): (v: Vec3)
    requires |a| == 3
    ensures [v.x, v.y, v.z] == a
  {
    Vec3(a[0], a[1], a[2])
  }

  /** `parse_floats(s, n, default)`: the default when the attribute is
      absent, otherwise the parsed values, which must number exactly `n`. */
  function ParseFloats(s: Option<seq<real>>, n: nat, default: seq<real>): (r: Result<seq<real>>)
    ensures s.None? ==> r == Ok(default)
    ensures s.Some? ==> (r.Ok? <==> |s.value| == n)
    ensures s.Some? && r.Ok? ==> r.value == s.value
    ensures r.Err? ==> r.error == MalformedAttribute
    ensures |default| == n && r.Ok? ==> |r.value| == n
  {
    match s
    case None => Ok(default)
    case Some(values) =>
      if |values| == n then Ok(values) else Err(MalformedAttribute)
  }

  /** A 3-vector attribute with its default. */
  function ParseVec3(s: Option<seq<real>>, default: Vec3): (r: Result<Vec3>)
    ensures r.Ok? <==> s.None? || |s.value| == 3
    ensures s.None? ==> r == Ok(default)
    ensures s.Some? && r.Ok? ==> [r.value.x, r.value.y, r.value.z] == s.value
  {
    var a :- ParseFloats(s, 3, [default.x, default.y, default.z]);
    Ok(ToVec3(a))
  }

  /** `quat_wxyz_to_xyzw`: moves the scalar part from the front to the back.
      Python indexes `q[0..3]`, so longer inputs lose their tail. */
  function QuatWxyzToXyzw(q: seq<real>): (r: seq<real>)
    requires |q| >= 4
    ensures |r| == 4
    ensures r[3] == q[0]
    ensures forall k :: 0 <= k < 3 ==> r[k] == q[k + 1]
  {
    [q[1], q[2], q[3], q[0]]
  }

  /** `np.roll(a, 1)` on a one-dimensional array: every element moves one
      place right and the last one wraps to the front. */
  function Roll<T>(a: seq<T>): (r: seq<T>)
    ensures |r| == |a|
    ensures forall k :: 0 <= k < |a| ==> r[(k + 1) % |a|] == a[k]
  {
    if |a| == 0 then []
    else
      var r := [a[|a| - 1]] + a[..|a| - 1];
      forall k | 0 <= k < |a|
        ensures r[(k + 1) % |a|] == a[k]
      {
        if k < |a| - 1 {
          assert (k + 1) % |a| == k + 1;
        } else {
          assert (k + 1) % |a| == 0;
        }
      }
      r
  }

  /** `np.roll(q, 1)` undoes `quat_wxyz_to_xyzw`: the viewer receives the
      scalar-first quaternion the description declared. */
  lemma RollUndoesWxyzToXyzw(q: seq<real>)
    requires |q| == 4
    ensures Roll(QuatWxyzToXyzw(q)) == q
  {
  }

  /** ... and the other way round, so the two layouts are in bijection. */
  lemma WxyzToXyzwUndoesRoll(q: seq<real>)
    requires |q| == 4
    ensures QuatWxyzToXyzw(Roll(q)) == q
  {
  }

  function DigitChar(d: nat): (c: char)
    requires d < 10
    ensures '0' <= c <= '9'
  {
    ('0' as int + d) as char
  }

  function DigitValue(c: char): nat {
    if '0' <= c <= '9' then (c as int - '0' as int) as nat else 0
  }

  /** Python's `str(n)` for a non-negative integer, as used by
      `f"body_{idx}"`: digits only, and no leading zero except in "0". */
  function Decimal(n: nat): (s: string)
    ensures |s| >= 1
    ensures forall k :: 0 <= k < |s| ==> '0' <= s[k] <= '9'
    ensures n == 0 ==> s == "0"
    ensures n > 0 ==> s[0] != '0'
    decreases n
  {
    if n < 10 then [DigitChar(n)] else Decimal(n / 10) + [DigitChar(n % 10)]
  }

  /** Reading decimal digits back as a number. */
  function DecimalValue(s: string): nat
    decreases |s|
  {
    if |s| == 0 then 0 else DecimalValue(s[..|s| - 1]) * 10 + DigitValue(s[|s| - 1])
  }

  /** `Decimal` is a faithful rendering: reading it back gives the number. */
  lemma {:induction false} DecimalRoundTrip(n: nat)
    ensures DecimalValue(Decimal(n)) == n
    decreases n
  {
    if n >= 10 {
      var s := Decimal(n);
      assert s[..|s| - 1] == Decimal(n / 10);
      assert DigitValue(s[|s| - 1]) == n % 10;
      DecimalRoundTrip(n / 10);
      assert (n / 10) * 10 + n % 10 == n;
    }
  }

  /** Distinct numbers render as distinct strings. */
  lemma DecimalInjective(m: nat, n: nat)
    requires m != n
    ensures Decimal(m) != Decimal(n)
  {
    DecimalRoundTrip(m);
    DecimalRoundTrip(n);
  }
}

=== FILE: binding.dfy ===
/** How the visual nodes created from the geometry map line up with the
    names `get_frame` looks up: as written, an unnamed body's meshes are
    keyed `""` while the kinematic model calls it `body_{idx}`, so its node
    is never moved; keyed by kinematic name, every node is moved. */
module VisualBinding {
  import opened Wrappers
  import opened Attributes
  import opened Mjcf
  import opened Kinematics
  import opened VisualGeoms
  import opened Player

  /** No body of the listing carries an explicit empty name. */
  predicate NoEmptyNames(bs: seq<Body>) {
    forall k :: 0 <= k < |bs| ==> bs[k].name != Some("")
  }

  /** As written: the node of an unnamed body that has meshes exists (keyed
      `""`), but no call of `get_frame` ever sets its pose. */
  lemma UnnamedMeshBodyNeverUpdated(doc: Document, k: nat, frame: Option<int>)
    requires NewPlayer(doc, NameOrEmpty).Ok?
    requires k < |PreOrder(RootBody(doc).value)|
    requires PreOrder(RootBody(doc).value)[k].name.None? && HasMesh(PreOrder(RootBody(doc).value)[k])
    requires NoEmptyNames(PreOrder(RootBody(doc).value))
    ensures "" in NewPlayer(doc, NameOrEmpty).value.frames
    ensures GetFrame(NewPlayer(doc, NameOrEmpty).value, frame).Ok? ==>
              "" !in GetFrame(NewPlayer(doc, NameOrEmpty).value, frame).value.Keys
  {
    var p := NewPlayer(doc, NameOrEmpty).value;
    var bodies := PreOrder(RootBody(doc).value);
    MeshKeysMembers(NameOrEmpty, bodies, 0, "");
    assert GeomKey(NameOrEmpty, bodies[k], 0 + k) == "";
    forall i | 0 <= i < |p.kin.names|
      ensures p.kin.names[i] != ""
    {
      assert p.kin.names[i] == KinematicName(bodies[i], i);
    }
  }

  /** When `names` are the kinematic names of `bodies`, the mesh keys by
      kinematic name are the names of the bodies that have a mesh geom. */
  lemma KinematicMeshKeys(bodies: seq<Body>, names: seq<string>, key: string)
    requires |bodies| == |names|
    requires forall k :: 0 <= k < |names| ==> names[k] == KinematicName(bodies[k], k)
    ensures key in MeshKeys(KinematicNames, bodies, 0) <==>
              exists k :: 0 <= k < |names| && HasMesh(bodies[k]) && names[k] == key
  {
    MeshKeysMembers(KinematicNames, bodies, 0, key);
    assert forall k :: 0 <= k < |bodies| ==> GeomKey(KinematicNames, bodies[k], 0 + k) == names[k];
  }

  /** Keyed by kinematic name, the geometry map's keys are exactly the
      names of the bodies that have a mesh geom. */
  lemma CorrectedKeysAreMeshBodies(doc: Document, key: string)
    requires Parse(doc).Ok? && LoadVisualGeoms(doc, KinematicNames).Ok?
    ensures key in LoadVisualGeoms(doc, KinematicNames).value <==>
              exists k :: 0 <= k < |Parse(doc).value.names| &&
                HasMesh(PreOrder(RootBody(doc).value)[k]) && Parse(doc).value.names[k] == key
  {
    KinematicMeshKeys(PreOrder(RootBody(doc).value), Parse(doc).value.names, key);
  }

  /** Keyed by kinematic name, `get_frame` sets the pose of every node. */
  lemma EveryMeshBodyUpdated(doc: Document, frame: Option<int>)
    requires NewPlayer(doc, KinematicNames).Ok?
    requires GetFrame(NewPlayer(doc, KinematicNames).value, frame).Ok?
    ensures GetFrame(NewPlayer(doc, KinematicNames).value, frame).value.Keys ==
              NewPlayer(doc, KinematicNames).value.frames
  {
    var p := NewPlayer(doc, KinematicNames).value;
    var s := Parse(doc).value;
    var geoms := LoadVisualGeoms(doc, KinematicNames).value;
    assert p.kin == s && p.frames == geoms.Keys;
    forall key | key in p.frames
      ensures key in UpdatedNames(p.kin.names, p.frames, |p.kin.names|)
    {
      CorrectedKeysAreMeshBodies(doc, key);
      var k :| 0 <= k < |s.names| && HasMesh(PreOrder(RootBody(doc).value)[k]) && s.names[k] == key;
      assert p.kin.names[k] in p.frames;
    }
  }

  /** A description with a named root and one unnamed child that has a mesh. */
  function ExampleDocument(): Document {
    var meshGeom := Geom(Some("mesh"), Some("link"), None, None, None);
    var child := Body(None, None, None, [Joint(None)], [meshGeom], []);
    var root := Body(Some("pelvis"), None, None, [], [], [child]);
    Document(None, Some([MeshDecl(Some("link"), Some("link.stl"), None)]), Some([root]))
  }

  /** The situation of `UnnamedMeshBodyNeverUpdated` occurs: the child is
      called `body_1` by the kinematic model but its node is keyed `""`. */
  lemma ExampleHasUnupdatedNode()
    ensures NewPlayer(ExampleDocument(), NameOrEmpty).Ok?
    ensures NewPlayer(ExampleDocument(), NameOrEmpty).value.kin.names == ["pelvis", "body_1"]
    ensures NewPlayer(ExampleDocument(), NameOrEmpty).value.frames == {""}
  {
    var doc := ExampleDocument();
    var root := RootBody(doc).value;
    var child := root.children[0];
    assert PreOrder(child) == [child];
    assert PreOrder(root) == [root, child];
    assert Decimal(1) == "1";
    assert MeshKeys(NameOrEmpty, [root, child], 0) == {""} by {
      assert [root, child][1..] == [child];
      assert [child][1..] == [];
      assert MeshGeoms(child.geoms) == child.geoms;
      assert MeshGeoms(root.geoms) == [];
    }
    var s := Parse(doc).value;
    assert s.names[0] == "pelvis" && s.names[1] == "body_1";
    assert s.names == ["pelvis", "body_1"];
  }
}

=== FILE: convert_smpl.dfy ===
/** `convert_to_smplx`: re-lays each pose row of a generated motion into the
    165-wide SMPL-X row, then slices that row into named fields. File loading
    and saving are left out; the arrays read and the record written are
    values here. */
module ConvertSmpl {
  import opened Wrappers

  /** A numpy array: its shape and its items in row-major order. */
  datatype NdArray<T> = NdArray(shape: seq<nat>, items: seq<T>)

  function Product(shape: seq<nat>): nat
    decreases |shape|
  {
    if |shape| == 0 then 1 else shape[0] * Product(shape[1..])
  }

  predicate WellShaped<T>(a: NdArray<T>) {
    |a.items| == Product(a.shape)
  }

  /** `squeeze()`: every axis of length one removed. */
  function Squeeze(shape: seq<nat>): (r: seq<nat>)
    ensures forall k :: 0 <= k < |r| ==> r[k] != 1 && r[k] in shape
    ensures forall k :: 0 <= k < |shape| && shape[k] != 1 ==> shape[k] in r
    ensures Product(r) == Product(shape)
    decreases |shape|
  {
    if |shape| == 0 then []
    else if shape[0] == 1 then Squeeze(shape[1..])
    else [shape[0]] + Squeeze(shape[1..])
  }

  /** `squeeze()` keeps every other axis as often as it occurs. */
  lemma {:induction false} SqueezeCounts(shape: seq<nat>)
    ensures multiset(Squeeze(shape)) == multiset(shape)[1 := 0]
    decreases |shape|
  {
    if |shape| > 0 {
      assert shape == [shape[0]] + shape[1..];
      SqueezeCounts(shape[1..]);
    }
  }

  /** `squeeze()` keeps the remaining axes in their order: squeezing a
      concatenation squeezes each part. */
  lemma {:induction false} SqueezeConcat(xs: seq<nat>, ys: seq<nat>)
    ensures Squeeze(xs + ys) == Squeeze(xs) + Squeeze(ys)
    decreases |xs|
  {
    if |xs| == 0 {
      assert xs + ys == ys;
    } else {
      assert (xs + ys)[0] == xs[0];
      assert (xs + ys)[1..] == xs[1..] + ys;
      SqueezeConcat(xs[1..], ys);
    }
  }

  /** The input arrays: `poses` as rows of `width` values, `trans`, `betas`
      and `gender` as arrays. */
  datatype GeneratedMotion = GeneratedMotion(
    poses: seq<seq<real>>,
    width: nat,
    trans: NdArray<real>,
    betas: NdArray<real>,
    gender: NdArray<string>)

  predicate InputShaped(d: GeneratedMotion) {
    && (forall t :: 0 <= t < |d.poses| ==> |d.poses[t]| == d.width)
    && WellShaped(d.betas)
    && WellShaped(d.gender)
  }

  /** `gender` as stored: a one-element array is unwrapped with `.item()`. */
  datatype Gender = Item(text: string) | Labels(labels: NdArray<string>)

  /** The record written: the SMPL-X (AMASS-layout) fields. */
  datatype SmplxMotion = SmplxMotion(
    poses: seq<seq<real>>,
    trans: NdArray<real>,
    betas: NdArray<real>,
    rootOrient: seq<seq<real>>,
    poseBody: seq<seq<real>>,
    poseHand: seq<seq<real>>,
    poseJaw: seq<seq<real>>,
    poseEye: seq<seq<real>>,
    gender: Gender,
    mocapFrameRate: seq<real>,
    mocapTimeLength: nat)

  /** Width of an SMPL-X pose row: 3 root, 63 body, 90 hand, 9 jaw and eye values. */
  const SmplxWidth: nat := 165

  function Zeros(n: nat): (r: seq<real>)
    ensures |r| == n && forall k :: 0 <= k < n ==> r[k] == 0.0
  {
    seq(n, _ => 0.0)
  }

  /** Width of the source slice `row[lo:hi]` for a row of `width` values. */
  function SliceWidth(width: nat, lo: nat, hi: nat): nat
    requires lo <= hi
  {
    if width <= lo then 0 else if width >= hi then hi - lo else width - lo
  }

  /** numpy accepts `dst[:, lo:hi] = src[:, lo:hi]` when the source slice is
      as wide as the target or exactly one wide (it is then broadcast). */
  predicate Broadcastable(width: nat, lo: nat, hi: nat)
    requires lo <= hi
  {
    SliceWidth(width, lo, hi) == hi - lo || SliceWidth(width, lo, hi) == 1
  }

  /** The three slice assignments into `amass_poses` are accepted exactly for rows of
      at least 156 values, and for rows of exactly 67 values, whose single
      value at 66 is broadcast over the hand block. */
  predicate WidthAccepted(width: nat) {
    Broadcastable(width, 0, 3) && Broadcastable(width, 3, 66) && Broadcastable(width, 66, 156)
  }

  /** The rows numpy accepts: at least 156 values, or exactly 67. */
  lemma WidthAcceptedExactly(width: nat)
    ensures WidthAccepted(width) <==> width >= 156 || width == 67
  {
  }

  /** A 165-wide row with a zero tail is its root, body and hand blocks
      followed by nine zeros. */
  lemma RowBlocks(p: seq<real>)
    requires |p| == SmplxWidth && p[156..] == Zeros(9)
    ensures p[..3] + p[3..66] + p[66..156] + Zeros(9) == p
  {
    assert p == p[..3] + p[3..66] + p[66..156] + p[156..];
  }

  /** One slice assignment `dst[lo:hi] = src[lo:hi]` with broadcasting. */
  function CopySlice(dst: seq<real>, lo: nat, hi: nat, src: seq<real>): (r: seq<real>)
    requires lo < hi <= |dst|
    requires Broadcastable(|src|, lo, hi)
    ensures |r| == |dst|
    ensures forall k :: 0 <= k < |dst| && (k < lo || hi <= k) ==> r[k] == dst[k]
    ensures forall k :: lo <= k < hi ==> r[k] == if |src| >= hi then src[k] else src[lo]
  {
    if |src| >= hi then dst[..lo] + src[lo..hi] + dst[hi..]
    else dst[..lo] + seq(hi - lo, _ => src[lo]) + dst[hi..]
  }

  /** One output row: zeros, with the root, body and hand blocks copied. */
  function ConvertRow(row: seq<real>): (r: seq<real>)
    requires WidthAccepted(|row|)
    ensures |r| == SmplxWidth
    ensures r[156..] == Zeros(9)
    ensures |row| >= 156 ==> r[..156] == row[..156]
    ensures |row| == 67 ==> r[..66] == row[..66] && forall k :: 66 <= k < 156 ==> r[k] == row[66]
  {
    var withRoot := CopySlice(Zeros(SmplxWidth), 0, 3, row);
    var withBody := CopySlice(withRoot, 3, 66, row);
    CopySlice(withBody, 66, 156, row)
  }

  /** `data['gender'].item() if data['gender'].shape == (1,) else data['gender']`. */
  function StoredGender(g: NdArray<string>): (r: Gender)
    requires WellShaped(g)
    ensures g.shape == [1] ==> r == Item(g.items[0])
    ensures g.shape != [1] ==> r == Labels(g)
  {
    assert g.shape == [1] ==> Product(g.shape) == 1;
    if g.shape == [1] then Item(g.items[0]) else Labels(g)
  }

  /** `convert_to_smplx(hym_npz_path, output_path, frame_rate=30.0)`.
      `T / frame_rate` is computed before `len(betas)` overwrites
      `mocap_time_length`, so a zero frame rate still raises. */
  function ConvertToSmplx(d: GeneratedMotion, frameRate: real := 30.0): (r: Result<SmplxMotion>)
    requires InputShaped(d)
    ensures r.Ok? <==> (d.width >= 156 || d.width == 67) && frameRate != 0.0 && |Squeeze(d.betas.shape)| >= 1
    ensures r.Err? && !WidthAccepted(d.width) ==> r.error == BroadcastMismatch
    ensures r.Ok? ==> |r.value.poses| == |d.poses|
    ensures r.Ok? ==> WidthAccepted(d.width) && forall t :: 0 <= t < |d.poses| ==> r.value.poses[t] == ConvertRow(d.poses[t])
    ensures r.Ok? ==> forall t :: 0 <= t < |d.poses| ==>
              && |r.value.poses[t]| == SmplxWidth
              && r.value.poses[t][156..] == Zeros(9)
              && (d.width >= 156 ==> r.value.poses[t][..156] == d.poses[t][..156])
    ensures r.Ok? ==> |r.value.rootOrient| == |r.value.poseBody| == |r.value.poseHand| == |d.poses|
    ensures r.Ok? ==> forall t :: 0 <= t < |d.poses| ==>
              && |r.value.rootOrient[t]| == 3 && |r.value.poseBody[t]| == 63 && |r.value.poseHand[t]| == 90
              && r.value.rootOrient[t] + r.value.poseBody[t] + r.value.poseHand[t] + Zeros(9) == r.value.poses[t]
    ensures r.Ok? ==> r.value.poseJaw == seq(|d.poses|, _ => Zeros(3))
    ensures r.Ok? ==> r.value.poseEye == seq(|d.poses|, _ => Zeros(6))
    ensures r.Ok? ==> r.value.trans == d.trans
    ensures r.Ok? ==> r.value.betas.items == d.betas.items && r.value.betas.shape == Squeeze(d.betas.shape)
    ensures r.Ok? ==> r.value.mocapFrameRate == [frameRate]
    ensures r.Ok? ==> r.value.mocapTimeLength == Squeeze(d.betas.shape)[0]
    ensures r.Ok? ==> r.value.gender == StoredGender(d.gender)
  {
    WidthAcceptedExactly(d.width);
    if !WidthAccepted(d.width) then Err(BroadcastMismatch)
    else
      var T := |d.poses|;
      var poses := seq(T, t requires 0 <= t < T => ConvertRow(d.poses[t]));
      var betas := NdArray(Squeeze(d.betas.shape), d.betas.items);
      if frameRate == 0.0 then Err(ZeroFrameRate)
      else if |betas.shape| == 0 then Err(NotASequence)
      else
        var rootOrient := seq(T, t requires 0 <= t < T => poses[t][..3]);
        var poseBody := seq(T, t requires 0 <= t < T => poses[t][3..66]);
        var poseHand := seq(T, t requires 0 <= t < T => poses[t][66..156]);
        assert forall t :: 0 <= t < T ==> rootOrient[t] + poseBody[t] + poseHand[t] + Zeros(9) == poses[t] by {
          forall t | 0 <= t < T
            ensures rootOrient[t] + poseBody[t] + poseHand[t] + Zeros(9) == poses[t]
          {
            RowBlocks(poses[t]);
          }
        }
        Ok(SmplxMotion(
          poses, d.trans, betas, rootOrient, poseBody, poseHand,
          seq(T, _ => Zeros(3)), seq(T, _ => Zeros(6)),
          StoredGender(d.gender), [frameRate], betas.shape[0]))
  }

  /** For the usual `betas` shapes `(n,)` and `(1, n)`, the stored
      `mocap_time_length` is the number of shape coefficients, not a
      duration. */
  lemma TimeLengthCountsBetas(d: GeneratedMotion, frameRate: real)
    requires InputShaped(d)
    requires ConvertToSmplx(d, frameRate).Ok?
    requires exists n: nat :: n != 1 && (d.betas.shape == [n] || d.betas.shape == [1, n])
    ensures ConvertToSmplx(d, frameRate).value.mocapTimeLength == |d.betas.items|
  {
    var n: nat :| n != 1 && (d.betas.shape == [n] || d.betas.shape == [1, n]);
    if d.betas.shape == [1, n] {
      assert d.betas.shape[1..] == [n];
      assert Squeeze(d.betas.shape) == Squeeze([n]);
    }
    assert [n][1..] == [];
    assert Squeeze([n]) == [n];
    assert Product([n]) == n;
  }
}

=== FILE: forward.dfy ===
/** `KinematicsModelLite.forward`: world positions and orientations of every
    body in every frame, from the root trajectory and the joint angles.

    Rotations are scipy `Rotation` objects; they are modelled as an abstract
    type `Q` with the five operations the code calls, so what is verified is
    the structure of the computation, not quaternion arithmetic. */
module ForwardKinematics {
  import opened Wrappers
  import opened Attributes
  import opened Kinematics

  /** The scipy operations `forward` uses. Quaternions are scalar-last. */
  datatype RotationOps<!Q> = RotationOps(
    fromQuat: seq<real> -> Q,   // R.from_quat
    asQuat: Q -> seq<real>,     // Rotation.as_quat
    compose: (Q, Q) -> Q,       // a * b: apply b first, then a
    apply: (Q, Vec3) -> Vec3,   // Rotation.apply
    fromRotvec: Vec3 -> Q)      // R.from_rotvec

  /** The identity rotation `[0, 0, 0, 1]` used for bodies without a DOF. */
  const IdentityQuat: seq<real> := [0.0, 0.0, 0.0, 1.0]

  /** World poses, indexed `[frame][body]`. */
  datatype Poses = Poses(pos: seq<seq<Vec3>>, rot: seq<seq<seq<real>>>)

  /** The column of `dof_pos` that body `i` reads when it has a DOF: the
      number of one-DOF bodies among bodies 1 .. i-1. Body 0 is never counted. */
  function DofColumn(s: Skeleton, i: nat): nat
    requires 1 <= i <= |s.jointDofs|
  {
    Sum(s.jointDofs[1..i])
  }

  /** How many columns of `dof_pos` one frame consumes. */
  function ColumnsUsed(s: Skeleton): nat
    requires |s.jointDofs| >= 1
  {
    DofColumn(s, |s.jointDofs|)
  }

  lemma DofColumnStep(s: Skeleton, i: nat)
    requires 1 <= i < |s.jointDofs|
    ensures DofColumn(s, i + 1) == DofColumn(s, i) + s.jointDofs[i]
  {
    assert s.jointDofs[1..i + 1][..i - 1] == s.jointDofs[1..i];
  }

  lemma {:induction false} DofColumnMonotone(s: Skeleton, i: nat, j: nat)
    requires 1 <= i <= j <= |s.jointDofs|
    ensures DofColumn(s, i) <= DofColumn(s, j)
    decreases j - i
  {
    if i < j {
      DofColumnStep(s, j - 1);
      DofColumnMonotone(s, i, j - 1);
    }
  }

  /** One-DOF bodies read distinct columns, in increasing body order, and
      every column they read exists in a row of `ColumnsUsed` values. */
  lemma DofColumnsIncrease(s: Skeleton, i: nat, j: nat)
    requires 1 <= i < j <= |s.jointDofs|
    requires s.jointDofs[i] == 1
    ensures DofColumn(s, i) < DofColumn(s, j)
    ensures DofColumn(s, i) < ColumnsUsed(s)
  {
    DofColumnStep(s, i);
    DofColumnMonotone(s, i + 1, j);
    DofColumnMonotone(s, j, |s.jointDofs|);
  }

  /** Columns are consumed without gaps: every column below `DofColumn(s, n)`
      is read by some one-DOF body before `n`. */
  lemma {:induction false} DofColumnsCovered(s: Skeleton, n: nat, c: nat)
    requires WellFormed(s) && 1 <= n <= |s.jointDofs|
    requires c < DofColumn(s, n)
    ensures exists i :: 1 <= i < n && s.jointDofs[i] == 1 && DofColumn(s, i) == c
    decreases n
  {
    if n > 1 {
      DofColumnStep(s, n - 1);
      if c < DofColumn(s, n - 1) {
        DofColumnsCovered(s, n - 1, c);
      } else {
        assert s.jointDofs[n - 1] == 1 && DofColumn(s, n - 1) == c;
      }
    }
  }

  /** `num_dof` also counts a joint on body 0, which `forward` never reads. */
  lemma NumDofSplitsAtRoot(s: Skeleton)
    requires |s.jointDofs| >= 1
    ensures NumDof(s) == s.jointDofs[0] + ColumnsUsed(s)
    decreases |s.jointDofs|
  {
    SumSplitsAtFront(s.jointDofs);
    assert s.jointDofs[1..|s.jointDofs|] == s.jointDofs[1..];
  }

  lemma {:induction false} SumSplitsAtFront(xs: seq<nat>)
    requires |xs| >= 1
    ensures Sum(xs) == xs[0] + Sum(xs[1..])
    decreases |xs|
  {
    if |xs| > 1 {
      var init := xs[..|xs| - 1];
      SumSplitsAtFront(init);
      assert init[1..] == xs[1..][..|xs[1..]| - 1];
    }
  }

  /** The joint rotation of body `i` (as a quaternion): about its axis by the
      angle in its column when it has a DOF, the identity otherwise. */
  function JointQuat<Q>(ops: RotationOps<Q>, s: Skeleton, i: nat, angles: seq<real>): seq<real>
    requires WellFormed(s) && 1 <= i < |s.names|
    requires |angles| >= ColumnsUsed(s)
  {
    if s.jointDofs[i] == 1 then
      DofColumnsIncrease(s, i, |s.names|);
      ops.asQuat(ops.fromRotvec(Scale(s.jointAxes[i].value, angles[DofColumn(s, i)])))
    else
      IdentityQuat
  }

  /** The rule body `i` obeys within one frame: orientation is
      parent * local * joint, and position is the parent's position plus the
      parent's orientation applied to the local offset. */
  ghost predicate BodyRule<Q>(ops: RotationOps<Q>, s: Skeleton, angles: seq<real>,
                              pos: seq<Vec3>, rot: seq<seq<real>>, i: nat)
    requires WellFormed(s) && 1 <= i < |s.names| && i < |pos| && i < |rot|
    requires |angles| >= ColumnsUsed(s)
  {
    var p := s.parents[i];
    && rot[i] == ops.asQuat(ops.compose(
                   ops.compose(ops.fromQuat(rot[p]), ops.fromQuat(s.localQuat[i])),
                   ops.fromQuat(JointQuat(ops, s, i, angles))))
    && pos[i] == Add(pos[p], ops.apply(ops.fromQuat(rot[p]), s.localPos[i]))
  }

  /** Poses of the first `n` bodies of one frame, and the next unread column. */
  datatype FrameState = FrameState(pos: seq<Vec3>, rot: seq<seq<real>>, column: nat)

  /** One iteration of the body loop: body `i` from its parent's pose,
      reading column `di` when it has a DOF and then advancing `di`. */
  function ExtendFrame<Q>(ops: RotationOps<Q>, s: Skeleton, angles: seq<real>,
                          prev: FrameState, i: nat): (r: FrameState)
    requires WellFormed(s) && 1 <= i < |s.names|
    requires |angles| >= ColumnsUsed(s)
    requires |prev.pos| == i && |prev.rot| == i && prev.column == DofColumn(s, i)
    ensures |r.pos| == i + 1 && |r.rot| == i + 1
    ensures prev.pos <= r.pos && prev.rot <= r.rot
    ensures r.column == DofColumn(s, i + 1)
    ensures BodyRule(ops, s, angles, r.pos, r.rot, i)
  {
    var p := s.parents[i];
    DofColumnStep(s, i);
    var dq :=
      if s.jointDofs[i] == 1 then
        DofColumnsIncrease(s, i, |s.names|);
        ops.asQuat(ops.fromRotvec(Scale(s.jointAxes[i].value, angles[prev.column])))
      else IdentityQuat;
    var parentRot := ops.fromQuat(prev.rot[p]);
    var q := ops.asQuat(ops.compose(ops.compose(parentRot, ops.fromQuat(s.localQuat[i])), ops.fromQuat(dq)));
    var x := Add(prev.pos[p], ops.apply(parentRot, s.localPos[i]));
    FrameState(prev.pos + [x], prev.rot + [q], prev.column + s.jointDofs[i])
  }

  /** Appending later bodies does not disturb the rule of an earlier one,
      because a body's rule mentions only itself and its (earlier) parent. */
  lemma BodyRulesStable<Q>(ops: RotationOps<Q>, s: Skeleton, angles: seq<real>,
                           prev: FrameState, next: FrameState, n: nat)
    requires WellFormed(s) && n <= |s.names| && |angles| >= ColumnsUsed(s)
    requires |prev.pos| == n && |prev.rot| == n
    requires prev.pos <= next.pos && prev.rot <= next.rot
    ensures forall j :: 1 <= j < n ==>
      BodyRule(ops, s, angles, prev.pos, prev.rot, j) ==> BodyRule(ops, s, angles, next.pos, next.rot, j)
  {
    forall j | 1 <= j < n && BodyRule(ops, s, angles, prev.pos, prev.rot, j)
      ensures BodyRule(ops, s, angles, next.pos, next.rot, j)
    {
      var p := s.parents[j];
      assert next.pos[j] == prev.pos[j] && next.pos[p] == prev.pos[p];
      assert next.rot[j] == prev.rot[j] && next.rot[p] == prev.rot[p];
    }
  }

  /** The body loop `for i in range(1, B)` of one frame, up to body `n`. */
  function FramePrefix<Q>(ops: RotationOps<Q>, s: Skeleton, rootPos: Vec3, rootRot: seq<real>,
                          angles: seq<real>, n: nat): (r: FrameState)
    requires WellFormed(s) && 1 <= n <= |s.names|
    requires |angles| >= ColumnsUsed(s)
    ensures |r.pos| == n && |r.rot| == n
    ensures r.column == DofColumn(s, n)
    ensures r.pos[0] == rootPos && r.rot[0] == rootRot
    ensures forall i :: 1 <= i < n ==> BodyRule(ops, s, angles, r.pos, r.rot, i)
    decreases n
  {
    if n == 1 then FrameState([rootPos], [rootRot], 0)
    else
      var prev := FramePrefix(ops, s, rootPos, rootRot, angles, n - 1);
      var r := ExtendFrame(ops, s, angles, prev, n - 1);
      BodyRulesStable(ops, s, angles, prev, r, n - 1);
      r
  }

  /** The joint angles of frame `t`; `dof_pos` is not read at all when no
      body after the root has a DOF. */
  function FrameAngles(s: Skeleton, dof: seq<seq<real>>, t: nat): (a: seq<real>)
    requires |s.jointDofs| >= 1
    requires ColumnsUsed(s) > 0 ==> t < |dof| && |dof[t]| >= ColumnsUsed(s)
    ensures |a| >= ColumnsUsed(s)
  {
    if ColumnsUsed(s) == 0 then [] else dof[t]
  }

  /** The shapes `forward` accepts: one four-component root orientation per
      frame and, when any column is read, one row of at least `ColumnsUsed`
      angles per frame. */
  predicate ShapesAgree(s: Skeleton, rootPos: seq<Vec3>, rootRot: seq<seq<real>>, dof: seq<seq<real>>)
    requires |s.jointDofs| >= 1
  {
    && |rootRot| == |rootPos|
    && (forall t :: 0 <= t < |rootRot| ==> |rootRot[t]| == 4)
    && (ColumnsUsed(s) > 0 ==>
          |dof| == |rootPos| && forall t :: 0 <= t < |dof| ==> |dof[t]| >= ColumnsUsed(s))
  }

  /** `forward(root_pos, root_rot, dof)`. */
  function Forward<Q>(ops: RotationOps<Q>, s: Skeleton, rootPos: seq<Vec3>,
                      rootRot: seq<seq<real>>, dof: seq<seq<real>>): (r: Result<Poses>)
    requires WellFormed(s)
    ensures r.Ok? <==> ShapesAgree(s, rootPos, rootRot, dof)
    ensures r.Err? ==> r.error == DimensionMismatch
    ensures r.Ok? ==> |r.value.pos| == |rootPos| && |r.value.rot| == |rootPos|
    ensures r.Ok? ==> forall t :: 0 <= t < |rootPos| ==>
              && |r.value.pos[t]| == |s.names| && |r.value.rot[t]| == |s.names|
              && r.value.pos[t][0] == rootPos[t]
              && r.value.rot[t][0] == rootRot[t]
              && forall i :: 1 <= i < |s.names| ==>
                   BodyRule(ops, s, FrameAngles(s, dof, t), r.value.pos[t], r.value.rot[t], i)
  {
    if !ShapesAgree(s, rootPos, rootRot, dof) then Err(DimensionMismatch)
    else
      var frames := seq(|rootPos|, t requires 0 <= t < |rootPos| =>
        FramePrefix(ops, s, rootPos[t], rootRot[t], FrameAngles(s, dof, t), |s.names|));
      Ok(Poses(seq(|rootPos|, t requires 0 <= t < |rootPos| => frames[t].pos),
               seq(|rootPos|, t requires 0 <= t < |rootPos| => frames[t].rot)))
  }
}

=== FILE: geoms.dfy ===
/** `load_robot_visual_geoms`: the mesh assets of `<asset>`, then a walk of
    the body tree that keeps each body's `type="mesh"` geoms, keyed by body.

    Loading, scaling and transforming the mesh files is left abstract: a
    `VisualMesh` records which asset a geom uses and the transform and colour
    the source applies to it. */
module VisualGeoms {
  import opened Wrappers
  import opened Attributes
  import opened Mjcf

  /** A declared mesh asset: directory, file name and vertex scale. */
  datatype MeshAsset = MeshAsset(dir: string, file: string, scale: Vec3)

  /** A mesh geom ready to render: its asset, local offset, local orientation
      (scalar-last) and RGBA colour. */
  datatype VisualMesh = VisualMesh(asset: MeshAsset, pos: Vec3, quat: seq<real>, rgba: seq<real>)

  predicate MeshDeclOk(d: MeshDecl) {
    d.name.Some? && d.file.Some? && (d.scale.None? || |d.scale.value| == 3)
  }

  /** One `<mesh>` declaration; `name` and `file` are required attributes. */
  function DeclAsset(d: MeshDecl, meshdir: string): (r: Result<MeshAsset>)
    ensures r.Ok? <==> MeshDeclOk(d)
    ensures r.Ok? ==> r.value.dir == meshdir && r.value.file == d.file.value
    ensures r.Ok? && d.scale.None? ==> r.value.scale == Vec3(1.0, 1.0, 1.0)
    ensures r.Ok? && d.scale.Some? ==> r.value.scale == ToVec3(d.scale.value)
  {
    if d.name.None? || d.file.None? then Err(MissingAttribute)
    else
      var scale :- ParseVec3(d.scale, Vec3(1.0, 1.0, 1.0));
      Ok(MeshAsset(meshdir, d.file.value, scale))
  }

  /** The names a list of declarations declares. */
  function DeclaredNames(decls: seq<MeshDecl>): set<string> {
    set k | 0 <= k < |decls| && decls[k].name.Some? :: decls[k].name.value
  }

  /** The table `asset_mesh`, filled in document order, so a later
      declaration of the same name replaces an earlier one. */
  function AssetTable(decls: seq<MeshDecl>, meshdir: string): (r: Result<map<string, MeshAsset>>)
    ensures r.Ok? <==> forall k :: 0 <= k < |decls| ==> MeshDeclOk(decls[k])
    ensures r.Ok? ==> r.value.Keys == DeclaredNames(decls)
    decreases |decls|
  {
    if |decls| == 0 then Ok(map[])
    else
      var init := decls[..|decls| - 1];
      var last := decls[|decls| - 1];
      assert DeclaredNames(decls) == DeclaredNames(init) + DeclaredNames([last]) by {
        assert decls == init + [last];
      }
      var table :- AssetTable(init, meshdir);
      var asset :- DeclAsset(last, meshdir);
      Ok(table[last.name.value := asset])
  }

  /** A name maps to the asset of its LAST declaration. */
  lemma {:induction false} AssetTableLastWins(decls: seq<MeshDecl>, meshdir: string, k: nat)
    requires AssetTable(decls, meshdir).Ok?
    requires k < |decls|
    requires forall j :: k < j < |decls| ==> decls[j].name != decls[k].name
    ensures decls[k].name.Some?
    ensures AssetTable(decls, meshdir).value[decls[k].name.value] == DeclAsset(decls[k], meshdir).value
    decreases |decls|
  {
    var init := decls[..|decls| - 1];
    if k < |decls| - 1 {
      AssetTableLastWins(init, meshdir, k);
    }
  }

  predicate IsMeshGeom(g: Geom) {
    g.kind == Some("mesh")
  }

  /** The geoms the loop keeps: `type == "mesh"`, in document order. */
  function MeshGeoms(gs: seq<Geom>): (r: seq<Geom>)
    ensures forall k :: 0 <= k < |r| ==> IsMeshGeom(r[k]) && r[k] in gs
    ensures forall g :: g in gs && IsMeshGeom(g) ==> g in r
    ensures |r| <= |gs|
    decreases |gs|
  {
    if |gs| == 0 then []
    else if IsMeshGeom(gs[0]) then [gs[0]] + MeshGeoms(gs[1..])
    else MeshGeoms(gs[1..])
  }

  /** The filter keeps every mesh geom as often as it occurs and nothing else. */
  lemma {:induction false} MeshGeomsCounts(gs: seq<Geom>)
    ensures forall g :: multiset(MeshGeoms(gs))[g] == if IsMeshGeom(g) then multiset(gs)[g] else 0
    decreases |gs|
  {
    if |gs| > 0 {
      assert gs == [gs[0]] + gs[1..];
      MeshGeomsCounts(gs[1..]);
    }
  }

  /** The filter keeps document order: filtering a concatenation filters
      each part. */
  lemma {:induction false} MeshGeomsConcat(xs: seq<Geom>, ys: seq<Geom>)
    ensures MeshGeoms(xs + ys) == MeshGeoms(xs) + MeshGeoms(ys)
    decreases |xs|
  {
    if |xs| == 0 {
      assert xs + ys == ys;
    } else {
      assert (xs + ys)[0] == xs[0];
      assert (xs + ys)[1..] == xs[1..] + ys;
      MeshGeomsConcat(xs[1..], ys);
    }
  }

  /** Every attribute the loop reads from a mesh geom is present, names a
      declared asset, or has the right arity. */
  predicate GeomOk(g: Geom, table: map<string, MeshAsset>) {
    && g.mesh.Some? && g.mesh.value in table
    && (g.pos.None? || |g.pos.value| == 3)
    && (g.quat.None? || |g.quat.value| == 4)
    && (g.rgba.None? || |g.rgba.value| == 4)
  }

  /** One mesh geom. */
  function LoadGeom(g: Geom, table: map<string, MeshAsset>): (r: Result<VisualMesh>)
    ensures r.Ok? <==> GeomOk(g, table)
    ensures r.Ok? ==> r.value.asset == table[g.mesh.value]
    ensures r.Ok? && g.pos.None? ==> r.value.pos == Vec3(0.0, 0.0, 0.0)
    ensures r.Ok? && g.quat.None? ==> r.value.quat == [0.0, 0.0, 0.0, 1.0]
    ensures r.Ok? && g.rgba.None? ==> r.value.rgba == [0.7, 0.7, 0.7, 1.0]
    ensures r.Ok? && g.pos.Some? ==> r.value.pos == ToVec3(g.pos.value)
    ensures r.Ok? && g.quat.Some? ==> r.value.quat == QuatWxyzToXyzw(g.quat.value)
    ensures r.Ok? && g.rgba.Some? ==> r.value.rgba == g.rgba.value
  {
    if g.mesh.None? then Err(MissingAttribute)
    else if g.mesh.value !in table then Err(UnknownMesh)
    else
      var pos :- ParseVec3(g.pos, Vec3(0.0, 0.0, 0.0));
      var wxyz :- ParseFloats(g.quat, 4, [1.0, 0.0, 0.0, 0.0]);
      var rgba :- ParseFloats(g.rgba, 4, [0.7, 0.7, 0.7, 1.0]);
      Ok(VisualMesh(table[g.mesh.value], pos, QuatWxyzToXyzw(wxyz), rgba))
  }

  predicate MeshGeomsOk(gs: seq<Geom>, table: map<string, MeshAsset>) {
    forall k :: 0 <= k < |gs| && IsMeshGeom(gs[k]) ==> GeomOk(gs[k], table)
  }

  lemma MeshGeomsOkCons(gs: seq<Geom>, table: map<string, MeshAsset>)
    requires |gs| > 0
    ensures MeshGeomsOk(gs, table) <==>
              (IsMeshGeom(gs[0]) ==> GeomOk(gs[0], table)) && MeshGeomsOk(gs[1..], table)
  {
    assert forall k :: 1 <= k < |gs| ==> gs[k] == gs[1..][k - 1];
  }

  /** The meshes of one body, one per mesh geom and in the same order. */
  function LoadGeoms(gs: seq<Geom>, table: map<string, MeshAsset>): (r: Result<seq<VisualMesh>>)
    ensures r.Ok? <==> MeshGeomsOk(gs, table)
    ensures r.Ok? ==> |r.value| == |MeshGeoms(gs)|
    ensures r.Ok? ==> forall k :: 0 <= k < |r.value| ==>
              r.value[k].asset == table[MeshGeoms(gs)[k].mesh.value]
    decreases |gs|
  {
    if |gs| == 0 then Ok([])
    else
      MeshGeomsOkCons(gs, table);
      if IsMeshGeom(gs[0]) then
        assert MeshGeoms(gs) == [gs[0]] + MeshGeoms(gs[1..]);
        var first :- LoadGeom(gs[0], table);
        var rest :- LoadGeoms(gs[1..], table);
        assert forall k :: 0 < k < |MeshGeoms(gs)| ==> MeshGeoms(gs)[k] == MeshGeoms(gs[1..])[k - 1];
        Ok([first] + rest)
      else
        assert MeshGeoms(gs) == MeshGeoms(gs[1..]);
        LoadGeoms(gs[1..], table)
  }

  /** A leading mesh geom gives the first mesh. */
  lemma LoadGeomsHead(gs: seq<Geom>, table: map<string, MeshAsset>)
    requires |gs| > 0 && IsMeshGeom(gs[0]) && LoadGeoms(gs, table).Ok?
    ensures MeshGeoms(gs) == [gs[0]] + MeshGeoms(gs[1..])
    ensures LoadGeom(gs[0], table).Ok? && LoadGeoms(gs[1..], table).Ok?
    ensures LoadGeoms(gs, table).value == [LoadGeom(gs[0], table).value] + LoadGeoms(gs[1..], table).value
  {
    MeshGeomsOkCons(gs, table);
  }

  /** A leading geom of another type is skipped. */
  lemma LoadGeomsSkip(gs: seq<Geom>, table: map<string, MeshAsset>)
    requires |gs| > 0 && !IsMeshGeom(gs[0])
    ensures MeshGeoms(gs) == MeshGeoms(gs[1..])
    ensures LoadGeoms(gs, table) == LoadGeoms(gs[1..], table)
  {
    MeshGeomsOkCons(gs, table);
  }

  lemma {:induction false} LoadGeomsAt(gs: seq<Geom>, table: map<string, MeshAsset>, k: nat)
    requires LoadGeoms(gs, table).Ok? && k < |MeshGeoms(gs)|
    ensures LoadGeom(MeshGeoms(gs)[k], table) == Ok(LoadGeoms(gs, table).value[k])
    decreases |gs|
  {
    if IsMeshGeom(gs[0]) {
      LoadGeomsHead(gs, table);
      if k > 0 {
        LoadGeomsAt(gs[1..], table, k - 1);
      }
    } else {
      LoadGeomsSkip(gs, table);
      LoadGeomsAt(gs[1..], table, k);
    }
  }

  /** Mesh `k` of a body is `LoadGeom` of its `k`-th mesh geom. */
  lemma LoadGeomsEach(gs: seq<Geom>, table: map<string, MeshAsset>)
    requires LoadGeoms(gs, table).Ok?
    ensures forall k :: 0 <= k < |MeshGeoms(gs)| ==>
              LoadGeom(MeshGeoms(gs)[k], table) == Ok(LoadGeoms(gs, table).value[k])
  {
    forall k | 0 <= k < |MeshGeoms(gs)|
      ensures LoadGeom(MeshGeoms(gs)[k], table) == Ok(LoadGeoms(gs, table).value[k])
    {
      LoadGeomsAt(gs, table, k);
    }
  }

  predicate HasMesh(b: Body) {
    |MeshGeoms(b.geoms)| > 0
  }

  predicate AllGeomsOk(bs: seq<Body>, table: map<string, MeshAsset>) {
    forall k :: 0 <= k < |bs| ==> MeshGeomsOk(bs[k].geoms, table)
  }

  /** How a body is keyed in the result: as the source does (its `name`
      attribute, or `""`), or by the name the kinematic model gives it. */
  datatype KeyScheme = NameOrEmpty | KinematicNames

  /** The two schemes agree on a named body; an unnamed one is keyed `""`
      under the source's scheme and `body_{idx}` under the kinematic one. */
  function GeomKey(scheme: KeyScheme, b: Body, idx: nat): (k: string)
    ensures b.name.Some? ==> k == b.name.value
    ensures b.name.None? ==> (k == "" <==> scheme == NameOrEmpty)
    ensures scheme == KinematicNames ==> k == KinematicName(b, idx)
  {
    match scheme
    case NameOrEmpty => b.name.GetOr("")
    case KinematicNames => KinematicName(b, idx)
  }

  /** Keys a pre-order listing starting at index `base` contributes: one per
      body that has at least one mesh geom. */
  function MeshKeys(scheme: KeyScheme, bs: seq<Body>, base: nat): set<string>
    decreases |bs|
  {
    if |bs| == 0 then {}
    else (if HasMesh(bs[0]) then {GeomKey(scheme, bs[0], base)} else {}) + MeshKeys(scheme, bs[1..], base + 1)
  }

  /** A body with a mesh geom contributes its key. */
  lemma {:induction false} MeshKeysHas(scheme: KeyScheme, bs: seq<Body>, base: nat, k: nat)
    requires k < |bs| && HasMesh(bs[k])
    ensures GeomKey(scheme, bs[k], base + k) in MeshKeys(scheme, bs, base)
    decreases k
  {
    if k > 0 {
      assert bs[1..][k - 1] == bs[k];
      MeshKeysHas(scheme, bs[1..], base + 1, k - 1);
    }
  }

  /** Every key comes from some body with a mesh geom. */
  lemma {:induction false} MeshKeysWitness(scheme: KeyScheme, bs: seq<Body>, base: nat, key: string)
    returns (k: nat)
    requires key in MeshKeys(scheme, bs, base)
    ensures k < |bs| && HasMesh(bs[k]) && GeomKey(scheme, bs[k], base + k) == key
    decreases |bs|
  {
    if HasMesh(bs[0]) && GeomKey(scheme, bs[0], base) == key {
      k := 0;
    } else {
      var j := MeshKeysWitness(scheme, bs[1..], base + 1, key);
      assert bs[1..][j] == bs[j + 1];
      k := j + 1;
    }
  }

  /** A key is in `MeshKeys` exactly when some body with a mesh geom has it. */
  lemma MeshKeysMembers(scheme: KeyScheme, bs: seq<Body>, base: nat, key: string)
    ensures key in MeshKeys(scheme, bs, base) <==>
              exists k :: 0 <= k < |bs| && HasMesh(bs[k]) && GeomKey(scheme, bs[k], base + k) == key
  {
    if key in MeshKeys(scheme, bs, base) {
      var k := MeshKeysWitness(scheme, bs, base, key);
    }
    if exists k :: 0 <= k < |bs| && HasMesh(bs[k]) && GeomKey(scheme, bs[k], base + k) == key {
      var k :| 0 <= k < |bs| && HasMesh(bs[k]) && GeomKey(scheme, bs[k], base + k) == key;
      MeshKeysHas(scheme, bs, base, k);
    }
  }

  lemma AllGeomsOkConcat(xs: seq<Body>, ys: seq<Body>, table: map<string, MeshAsset>)
    ensures AllGeomsOk(xs + ys, table) <==> AllGeomsOk(xs, table) && AllGeomsOk(ys, table)
  {
    if AllGeomsOk(xs + ys, table) {
      forall k | 0 <= k < |xs| ensures MeshGeomsOk(xs[k].geoms, table) {
        assert xs[k] == (xs + ys)[k];
      }
      forall k | 0 <= k < |ys| ensures MeshGeomsOk(ys[k].geoms, table) {
        assert ys[k] == (xs + ys)[|xs| + k];
      }
    }
  }

  predicate NonEmptyValues(m: map<string, seq<VisualMesh>>) {
    forall key :: key in m ==> |m[key]| > 0
  }

  /** `visit(body)`: record the body's meshes under its key when it has any,
      then visit the children. `idx` is the body's pre-order index; the
      second result is the index after the subtree. */
  function VisitGeoms(scheme: KeyScheme, b: Body, idx: nat, table: map<string, MeshAsset>,
                      acc: map<string, seq<VisualMesh>>): (r: Result<(map<string, seq<VisualMesh>>, nat)>)
    ensures r.Ok? <==> AllGeomsOk(PreOrder(b), table)
    ensures r.Ok? ==> r.value.1 == idx + |PreOrder(b)|
    ensures r.Ok? && NonEmptyValues(acc) ==> NonEmptyValues(r.value.0)
    decreases b, |b.children| + 1
  {
    AllGeomsOkConcat([b], PreOrderFrom(b, 0), table);
    var meshes :- LoadGeoms(b.geoms, table);
    var withSelf := if |meshes| > 0 then acc[GeomKey(scheme, b, idx) := meshes] else acc;
    VisitGeomsFrom(scheme, b, 0, idx + 1, table, withSelf)
  }

  /** The loop `for c in body.findall("body"): visit(c)` from child `i` on,
      the first of them at pre-order index `idx`. */
  function VisitGeomsFrom(scheme: KeyScheme, b: Body, i: nat, idx: nat, table: map<string, MeshAsset>,
                          acc: map<string, seq<VisualMesh>>): (r: Result<(map<string, seq<VisualMesh>>, nat)>)
    requires i <= |b.children|
    ensures r.Ok? <==> AllGeomsOk(PreOrderFrom(b, i), table)
    ensures r.Ok? ==> r.value.1 == idx + |PreOrderFrom(b, i)|
    ensures r.Ok? && NonEmptyValues(acc) ==> NonEmptyValues(r.value.0)
    decreases b, |b.children| - i
  {
    if i == |b.children| then Ok((acc, idx))
    else
      AllGeomsOkConcat(PreOrder(b.children[i]), PreOrderFrom(b, i + 1), table);
      var afterChild :- VisitGeoms(scheme, b.children[i], idx, table, acc);
      VisitGeomsFrom(scheme, b, i + 1, afterChild.1, table, afterChild.0)
  }

  /** What `visit` does for one body before its children: store the body's
      meshes under its key when it has a mesh geom. */
  function Record(scheme: KeyScheme, b: Body, idx: nat, table: map<string, MeshAsset>,
                  acc: map<string, seq<VisualMesh>>): map<string, seq<VisualMesh>>
    requires MeshGeomsOk(b.geoms, table)
  {
    if HasMesh(b) then acc[GeomKey(scheme, b, idx) := LoadGeoms(b.geoms, table).value] else acc
  }

  /** The table the walk builds, as a left-to-right pass over a pre-order
      listing whose first body has index `base`. */
  function FoldGeoms(scheme: KeyScheme, bs: seq<Body>, base: nat, table: map<string, MeshAsset>,
                     acc: map<string, seq<VisualMesh>>): map<string, seq<VisualMesh>>
    requires AllGeomsOk(bs, table)
    decreases |bs|
  {
    if |bs| == 0 then acc
    else
      assert forall k :: 0 <= k < |bs| - 1 ==> bs[1..][k] == bs[k + 1];
      FoldGeoms(scheme, bs[1..], base + 1, table, Record(scheme, bs[0], base, table, acc))
  }

  lemma {:induction false} FoldGeomsConcat(scheme: KeyScheme, xs: seq<Body>, ys: seq<Body>, base: nat,
                                           table: map<string, MeshAsset>, acc: map<string, seq<VisualMesh>>)
    requires AllGeomsOk(xs + ys, table)
    ensures AllGeomsOk(xs, table) && AllGeomsOk(ys, table)
    ensures FoldGeoms(scheme, xs + ys, base, table, acc) ==
              FoldGeoms(scheme, ys, base + |xs|, table, FoldGeoms(scheme, xs, base, table, acc))
    decreases |xs|
  {
    AllGeomsOkConcat(xs, ys, table);
    if |xs| == 0 {
      assert xs + ys == ys;
    } else {
      assert (xs + ys)[0] == xs[0];
      assert (xs + ys)[1..] == xs[1..] + ys;
      FoldGeomsConcat(scheme, xs[1..], ys, base + 1, table, Record(scheme, xs[0], base, table, acc));
    }
  }

  /** The recursive walk computes the left-to-right pass over the subtree. */
  lemma {:induction false} VisitGeomsFold(scheme: KeyScheme, b: Body, idx: nat, table: map<string, MeshAsset>,
                                          acc: map<string, seq<VisualMesh>>)
    requires VisitGeoms(scheme, b, idx, table, acc).Ok?
    ensures AllGeomsOk(PreOrder(b), table)
    ensures VisitGeoms(scheme, b, idx, table, acc).value.0 == FoldGeoms(scheme, PreOrder(b), idx, table, acc)
    decreases b, |b.children| + 1
  {
    FoldGeomsConcat(scheme, [b], PreOrderFrom(b, 0), idx, table, acc);
    var withSelf := Record(scheme, b, idx, table, acc);
    assert FoldGeoms(scheme, [b], idx, table, acc) == withSelf;
    VisitGeomsFromFold(scheme, b, 0, idx + 1, table, withSelf);
  }

  lemma {:induction false} VisitGeomsFromFold(scheme: KeyScheme, b: Body, i: nat, idx: nat,
                                              table: map<string, MeshAsset>, acc: map<string, seq<VisualMesh>>)
    requires i <= |b.children|
    requires VisitGeomsFrom(scheme, b, i, idx, table, acc).Ok?
    ensures AllGeomsOk(PreOrderFrom(b, i), table)
    ensures VisitGeomsFrom(scheme, b, i, idx, table, acc).value.0 == FoldGeoms(scheme, PreOrderFrom(b, i), idx, table, acc)
    decreases b, |b.children| - i
  {
    if i < |b.children| {
      var child := b.children[i];
      FoldGeomsConcat(scheme, PreOrder(child), PreOrderFrom(b, i + 1), idx, table, acc);
      var afterChild := VisitGeoms(scheme, child, idx, table, acc).value;
      assert VisitGeomsFrom(scheme, b, i, idx, table, acc) ==
             VisitGeomsFrom(scheme, b, i + 1, afterChild.1, table, afterChild.0);
      VisitGeomsFold(scheme, child, idx, table, acc);
      assert afterChild.1 == idx + |PreOrder(child)|;
      VisitGeomsFromFold(scheme, b, i + 1, afterChild.1, table, afterChild.0);
    }
  }

  lemma FoldGeomsCons(scheme: KeyScheme, bs: seq<Body>, base: nat, table: map<string, MeshAsset>,
                      acc: map<string, seq<VisualMesh>>)
    requires AllGeomsOk(bs, table) && |bs| > 0
    ensures MeshGeomsOk(bs[0].geoms, table) && AllGeomsOk(bs[1..], table)
    ensures FoldGeoms(scheme, bs, base, table, acc) ==
              FoldGeoms(scheme, bs[1..], base + 1, table, Record(scheme, bs[0], base, table, acc))
  {
    assert forall j :: 0 <= j < |bs| - 1 ==> bs[1..][j] == bs[j + 1];
  }

  /** The pass records exactly one key per body that has a mesh geom. */
  lemma {:induction false} FoldGeomsKeys(scheme: KeyScheme, bs: seq<Body>, base: nat,
                                         table: map<string, MeshAsset>, acc: map<string, seq<VisualMesh>>)
    requires AllGeomsOk(bs, table)
    ensures FoldGeoms(scheme, bs, base, table, acc).Keys == acc.Keys + MeshKeys(scheme, bs, base)
    decreases |bs|
  {
    if |bs| > 0 {
      FoldGeomsCons(scheme, bs, base, table, acc);
      var next := Record(scheme, bs[0], base, table, acc);
      assert next.Keys == acc.Keys + (if HasMesh(bs[0]) then {GeomKey(scheme, bs[0], base)} else {});
      FoldGeomsKeys(scheme, bs[1..], base + 1, table, next);
    }
  }

  /** The walk records exactly one key per body that has a mesh geom. */
  lemma VisitGeomsKeys(scheme: KeyScheme, b: Body, idx: nat, table: map<string, MeshAsset>,
                       acc: map<string, seq<VisualMesh>>)
    requires VisitGeoms(scheme, b, idx, table, acc).Ok?
    ensures VisitGeoms(scheme, b, idx, table, acc).value.0.Keys == acc.Keys + MeshKeys(scheme, PreOrder(b), idx)
  {
    VisitGeomsFold(scheme, b, idx, table, acc);
    FoldGeomsKeys(scheme, PreOrder(b), idx, table, acc);
  }

  /** A key no body of the listing records keeps its value. */
  lemma {:induction false} FoldGeomsKeeps(scheme: KeyScheme, bs: seq<Body>, base: nat, table: map<string, MeshAsset>,
                                          acc: map<string, seq<VisualMesh>>, key: string)
    requires AllGeomsOk(bs, table)
    requires key in acc
    requires forall j :: 0 <= j < |bs| && HasMesh(bs[j]) ==> GeomKey(scheme, bs[j], base + j) != key
    ensures key in FoldGeoms(scheme, bs, base, table, acc)
    ensures FoldGeoms(scheme, bs, base, table, acc)[key] == acc[key]
    decreases |bs|
  {
    if |bs| > 0 {
      FoldGeomsCons(scheme, bs, base, table, acc);
      var next := Record(scheme, bs[0], base, table, acc);
      assert key in next && next[key] == acc[key];
      forall j | 0 <= j < |bs| - 1 && HasMesh(bs[1..][j])
        ensures GeomKey(scheme, bs[1..][j], base + 1 + j) != key
      {
        assert bs[1..][j] == bs[j + 1];
      }
      FoldGeomsKeeps(scheme, bs[1..], base + 1, table, next, key);
    }
  }

  /** The body at the head of the listing, when no later body shares its
      key, finds its own meshes under that key. */
  lemma FoldGeomsHeadWins(scheme: KeyScheme, bs: seq<Body>, base: nat,
                          table: map<string, MeshAsset>, acc: map<string, seq<VisualMesh>>)
    requires AllGeomsOk(bs, table)
    requires |bs| > 0 && HasMesh(bs[0])
    requires forall j :: 0 < j < |bs| && HasMesh(bs[j]) ==>
               GeomKey(scheme, bs[j], base + j) != GeomKey(scheme, bs[0], base)
    ensures GeomKey(scheme, bs[0], base) in FoldGeoms(scheme, bs, base, table, acc)
    ensures FoldGeoms(scheme, bs, base, table, acc)[GeomKey(scheme, bs[0], base)] ==
              LoadGeoms(bs[0].geoms, table).value
  {
    FoldGeomsCons(scheme, bs, base, table, acc);
    var next := Record(scheme, bs[0], base, table, acc);
    var key := GeomKey(scheme, bs[0], base);
    assert key in next && next[key] == LoadGeoms(bs[0].geoms, table).value;
    forall j | 0 <= j < |bs| - 1 && HasMesh(bs[1..][j])
      ensures GeomKey(scheme, bs[1..][j], base + 1 + j) != key
    {
      assert bs[1..][j] == bs[j + 1];
    }
    FoldGeomsKeeps(scheme, bs[1..], base + 1, table, next, key);
  }

  /** The value under a key is the meshes of the LAST body in pre-order
      that has a mesh geom and that key. */
  lemma {:induction false} FoldGeomsLastWins(scheme: KeyScheme, bs: seq<Body>, base: nat,
                                             table: map<string, MeshAsset>, acc: map<string, seq<VisualMesh>>, k: nat)
    requires AllGeomsOk(bs, table)
    requires k < |bs| && HasMesh(bs[k])
    requires forall j :: k < j < |bs| && HasMesh(bs[j]) ==>
               GeomKey(scheme, bs[j], base + j) != GeomKey(scheme, bs[k], base + k)
    ensures GeomKey(scheme, bs[k], base + k) in FoldGeoms(scheme, bs, base, table, acc)
    ensures FoldGeoms(scheme, bs, base, table, acc)[GeomKey(scheme, bs[k], base + k)] ==
              LoadGeoms(bs[k].geoms, table).value
    decreases |bs|
  {
    if k == 0 {
      FoldGeomsHeadWins(scheme, bs, base, table, acc);
    } else {
      FoldGeomsCons(scheme, bs, base, table, acc);
      var next := Record(scheme, bs[0], base, table, acc);
      var key := GeomKey(scheme, bs[k], base + k);
      assert bs[1..][k - 1] == bs[k] && base + 1 + (k - 1) == base + k;
      forall j | k - 1 < j < |bs| - 1 && HasMesh(bs[1..][j])
        ensures GeomKey(scheme, bs[1..][j], base + 1 + j) != key
      {
        assert bs[1..][j] == bs[j + 1];
      }
      FoldGeomsLastWins(scheme, bs[1..], base + 1, table, next, k - 1);
    }
  }

  /** `load_robot_visual_geoms(xml_path)` with the given keying. */
  function LoadVisualGeoms(doc: Document, scheme: KeyScheme): (r: Result<map<string, seq<VisualMesh>>>)
    ensures r.Ok? ==> RootBody(doc).Ok?
    ensures r.Ok? ==> r.value.Keys == MeshKeys(scheme, PreOrder(RootBody(doc).value), 0)
    ensures r.Ok? ==> NonEmptyValues(r.value)
    ensures r.Ok? <==>
              && doc.assets.Some?
              && (forall k :: 0 <= k < |doc.assets.value| ==> MeshDeclOk(doc.assets.value[k]))
              && RootBody(doc).Ok?
              && AllGeomsOk(PreOrder(RootBody(doc).value),
                            AssetTable(doc.assets.value, doc.meshdir.GetOr("")).value)
    ensures r.Ok? ==> r.value == FoldGeoms(scheme, PreOrder(RootBody(doc).value), 0,
                                           AssetTable(doc.assets.value, doc.meshdir.GetOr("")).value, map[])
  {
    if doc.assets.None? then Err(MissingElement)
    else
      var table :- AssetTable(doc.assets.value, doc.meshdir.GetOr(""));
      var root :- RootBody(doc);
      var visited :- VisitGeoms(scheme, root, 0, table, map[]);
      VisitGeomsKeys(scheme, root, 0, table, map[]);
      VisitGeomsFold(scheme, root, 0, table, map[]);
      Ok(visited.0)
  }

  /** Each body of the tree that has a mesh geom and is the last in
      pre-order with its key finds its own meshes under that key. */
  lemma LoadVisualGeomsLastWins(doc: Document, scheme: KeyScheme, k: nat)
    requires LoadVisualGeoms(doc, scheme).Ok?
    requires k < |PreOrder(RootBody(doc).value)|
    requires var bs := PreOrder(RootBody(doc).value);
             && HasMesh(bs[k])
             && forall j :: k < j < |bs| && HasMesh(bs[j]) ==> GeomKey(scheme, bs[j], j) != GeomKey(scheme, bs[k], k)
    ensures var bs := PreOrder(RootBody(doc).value);
            var table := AssetTable(doc.assets.value, doc.meshdir.GetOr("")).value;
            && MeshGeomsOk(bs[k].geoms, table)
            && GeomKey(scheme, bs[k], k) in LoadVisualGeoms(doc, scheme).value
            && LoadVisualGeoms(doc, scheme).value[GeomKey(scheme, bs[k], k)] == LoadGeoms(bs[k].geoms, table).value
  {
    var bs := PreOrder(RootBody(doc).value);
    var table := AssetTable(doc.assets.value, doc.meshdir.GetOr("")).value;
    FoldGeomsLastWins(scheme, bs, 0, table, map[], k);
  }
}

=== FILE: kinematics.dfy ===
/** `KinematicsModelLite._parse`: a depth-first, pre-order walk of the body
    tree that fills parallel arrays (names, parent indices, local offsets,
    local orientations, joint axes, DOF counts), and `num_dof`. */
module Kinematics {
  import opened Wrappers
  import opened Attributes
  import opened Mjcf

  /** The flattened skeleton: entry `i` of every array describes the body
      with pre-order index `i`. Local orientations are scalar-last (x, y, z, w). */
  datatype Skeleton = Skeleton(
    names: seq<string>,
    parents: seq<int>,
    localPos: seq<Vec3>,
    localQuat: seq<seq<real>>,
    jointAxes: seq<Option<Vec3>>,
    jointDofs: seq<nat>)

  const Empty := Skeleton([], [], [], [], [], [])

  /** The invariant the walk keeps: equal-length arrays, the first body is
      the root (parent -1) and every other body's parent comes before it,
      a body has an axis exactly when it has one DOF, quaternions have four
      components. */
  predicate Consistent(s: Skeleton) {
    && |s.parents| == |s.names|
    && |s.localPos| == |s.names|
    && |s.localQuat| == |s.names|
    && |s.jointAxes| == |s.names|
    && |s.jointDofs| == |s.names|
    && (forall i :: 0 <= i < |s.parents| ==>
          if i == 0 then s.parents[i] == -1 else 0 <= s.parents[i] < i)
    && (forall i :: 0 <= i < |s.jointDofs| ==>
          s.jointDofs[i] <= 1 && (s.jointAxes[i].Some? <==> s.jointDofs[i] == 1))
    && (forall i :: 0 <= i < |s.localQuat| ==> |s.localQuat[i]| == 4)
  }

  /** A complete skeleton: consistent and with at least the root. */
  predicate WellFormed(s: Skeleton) {
    Consistent(s) && |s.names| >= 1
  }

  /** `s` is `acc` with entries appended. */
  predicate Extends(s: Skeleton, acc: Skeleton) {
    && acc.names <= s.names
    && acc.parents <= s.parents
    && acc.localPos <= s.localPos
    && acc.localQuat <= s.localQuat
    && acc.jointAxes <= s.jointAxes
    && acc.jointDofs <= s.jointDofs
  }

  /** The DOF count the source gives a body: one exactly when it has a single
      `<joint>` child; zero joints and several joints both mean rigid. */
  function DofOf(b: Body): nat {
    if |b.joints| == 1 then 1 else 0
  }

  /** Every numeric attribute `_parse` reads on `b` has the right arity. */
  predicate BodyAttributesOk(b: Body) {
    && (b.pos.None? || |b.pos.value| == 3)
    && (b.quat.None? || |b.quat.value| == 4)
    && (|b.joints| == 1 ==> b.joints[0].axis.None? || |b.joints[0].axis.value| == 3)
  }

  predicate AllAttributesOk(bs: seq<Body>) {
    forall k :: 0 <= k < |bs| ==> BodyAttributesOk(bs[k])
  }

  /** The joint part of a body's entry: the axis (default z) and one DOF for
      a single joint, no axis and zero DOF otherwise. */
  function JointOf(b: Body): (r: Result<(Option<Vec3>, nat)>)
    ensures r.Ok? <==> BodyAttributesOk(b.(pos := None, quat := None))
    ensures r.Ok? ==> r.value.1 == DofOf(b) && (r.value.0.Some? <==> DofOf(b) == 1)
    ensures r.Ok? && |b.joints| == 1 && b.joints[0].axis.None? ==> r.value.0 == Some(Vec3(0.0, 0.0, 1.0))
    ensures r.Ok? && |b.joints| == 1 && b.joints[0].axis.Some? ==> r.value.0 == Some(ToVec3(b.joints[0].axis.value))
  {
    if |b.joints| == 1 then
      var axis :- ParseVec3(b.joints[0].axis, Vec3(0.0, 0.0, 1.0));
      Ok((Some(axis), 1))
    else
      Ok((None, 0))
  }

  /** Entry `j` of `s` is what `dfs` appends for body `b` under `parent`:
      the name, the parent, the parsed `pos` (zero by default), the parsed
      `quat` reordered scalar-last (identity by default), and the axis and
      DOF count of the joint. */
  predicate HoldsBody(s: Skeleton, j: nat, b: Body, parent: int) {
    && j < |s.names| && j < |s.parents| && j < |s.localPos|
    && j < |s.localQuat| && j < |s.jointAxes| && j < |s.jointDofs|
    && s.names[j] == KinematicName(b, j)
    && s.parents[j] == parent
    && ParseVec3(b.pos, Vec3(0.0, 0.0, 0.0)) == Ok(s.localPos[j])
    && (var wxyz := ParseFloats(b.quat, 4, [1.0, 0.0, 0.0, 0.0]);
        wxyz.Ok? && |wxyz.value| == 4 && s.localQuat[j] == QuatWxyzToXyzw(wxyz.value))
    && JointOf(b) == Ok((s.jointAxes[j], s.jointDofs[j]))
  }

  /** The entry for `b`, appended at index `|acc.names|` with the given parent. */
  function AppendBody(acc: Skeleton, b: Body, parent: int): (r: Result<Skeleton>)
    requires Consistent(acc)
    requires if |acc.names| == 0 then parent == -1 else 0 <= parent < |acc.names|
    ensures r.Ok? <==> BodyAttributesOk(b)
    ensures r.Ok? ==> Consistent(r.value) && Extends(r.value, acc)
    ensures r.Ok? ==> |r.value.names| == |acc.names| + 1
    ensures r.Ok? ==> r.value.names[|acc.names|] == KinematicName(b, |acc.names|)
    ensures r.Ok? ==> r.value.parents[|acc.names|] == parent
    ensures r.Ok? ==> r.value.jointDofs[|acc.names|] == DofOf(b)
    ensures r.Ok? && b.pos.None? ==> r.value.localPos[|acc.names|] == Vec3(0.0, 0.0, 0.0)
    ensures r.Ok? && b.quat.None? ==> r.value.localQuat[|acc.names|] == [0.0, 0.0, 0.0, 1.0]
    ensures r.Ok? && b.pos.Some? ==> r.value.localPos[|acc.names|] == ToVec3(b.pos.value)
    ensures r.Ok? && b.quat.Some? ==> r.value.localQuat[|acc.names|] == QuatWxyzToXyzw(b.quat.value)
    ensures r.Ok? ==> r.value.jointAxes[|acc.names|] == JointOf(b).value.0
    ensures r.Ok? ==> HoldsBody(r.value, |acc.names|, b, parent)
  {
    var idx := |acc.names|;
    var pos :- ParseVec3(b.pos, Vec3(0.0, 0.0, 0.0));
    var wxyz :- ParseFloats(b.quat, 4, [1.0, 0.0, 0.0, 0.0]);
    var joint :- JointOf(b);
    Ok(Skeleton(
      acc.names + [KinematicName(b, idx)],
      acc.parents + [parent],
      acc.localPos + [pos],
      acc.localQuat + [QuatWxyzToXyzw(wxyz)],
      acc.jointAxes + [joint.0],
      acc.jointDofs + [joint.1]))
  }

  lemma AllAttributesOkConcat(xs: seq<Body>, ys: seq<Body>)
    ensures AllAttributesOk(xs + ys) <==> AllAttributesOk(xs) && AllAttributesOk(ys)
  {
    if AllAttributesOk(xs) && AllAttributesOk(ys) {
      forall k | 0 <= k < |xs + ys|
        ensures BodyAttributesOk((xs + ys)[k])
      {
        if k >= |xs| {
          assert (xs + ys)[k] == ys[k - |xs|];
        }
      }
    }
    if AllAttributesOk(xs + ys) {
      forall k | 0 <= k < |xs|
        ensures BodyAttributesOk(xs[k])
      {
        assert xs[k] == (xs + ys)[k];
      }
      forall k | 0 <= k < |ys|
        ensures BodyAttributesOk(ys[k])
      {
        assert ys[k] == (xs + ys)[|xs| + k];
      }
    }
  }

  /** `P(base + k, xs[k], ps[k])` for every `k`: a property of each element
      of a listing laid out from index `base`, with its parent. */
  predicate EachAt<T>(P: (nat, T, int) -> bool, base: nat, xs: seq<T>, ps: seq<int>)
    decreases |xs|
  {
    && |ps| == |xs|
    && (|xs| > 0 ==> P(base, xs[0], ps[0]) && EachAt(P, base + 1, xs[1..], ps[1..]))
  }

  lemma {:induction false} EachAtIndex<T>(P: (nat, T, int) -> bool, base: nat, xs: seq<T>, ps: seq<int>, k: nat)
    requires EachAt(P, base, xs, ps) && k < |xs|
    ensures P(base + k, xs[k], ps[k])
    decreases k
  {
    if k > 0 {
      EachAtIndex(P, base + 1, xs[1..], ps[1..], k - 1);
    }
  }

  lemma {:induction false} EachAtConcat<T>(P: (nat, T, int) -> bool, base: nat, xs: seq<T>, xps: seq<int>,
                                           ys: seq<T>, yps: seq<int>)
    requires EachAt(P, base, xs, xps) && EachAt(P, base + |xs|, ys, yps)
    ensures EachAt(P, base, xs + ys, xps + yps)
    decreases |xs|
  {
    if |xs| == 0 {
      assert xs + ys == ys && xps + yps == yps;
    } else {
      EachAtConcat(P, base + 1, xs[1..], xps[1..], ys, yps);
      assert (xs + ys)[0] == xs[0] && (xps + yps)[0] == xps[0];
      assert (xs + ys)[1..] == xs[1..] + ys;
      assert (xps + yps)[1..] == xps[1..] + yps;
    }
  }

  /** Entries `base, base+1, …` of `s` are those of the bodies `bs`, in
      order, under the parents `ps`. */
  predicate Lists(s: Skeleton, base: nat, bs: seq<Body>, ps: seq<int>) {
    EachAt((j, b, p) => HoldsBody(s, j, b, p), base, bs, ps)
  }

  /** An entry stays what it was when the skeleton is extended. */
  lemma HoldsBodyExtends(s: Skeleton, t: Skeleton, j: nat, b: Body, p: int)
    requires HoldsBody(s, j, b, p) && Extends(t, s)
    ensures HoldsBody(t, j, b, p)
  {
    assert t.names[j] == s.names[j] && t.parents[j] == s.parents[j];
    assert t.localPos[j] == s.localPos[j] && t.localQuat[j] == s.localQuat[j];
    assert t.jointAxes[j] == s.jointAxes[j] && t.jointDofs[j] == s.jointDofs[j];
  }

  lemma {:induction false} ListsExtends(s: Skeleton, t: Skeleton, base: nat, bs: seq<Body>, ps: seq<int>)
    requires Lists(s, base, bs, ps) && Extends(t, s)
    ensures Lists(t, base, bs, ps)
    decreases |bs|
  {
    if |bs| > 0 {
      ListsExtends(s, t, base + 1, bs[1..], ps[1..]);
      HoldsBodyExtends(s, t, base, bs[0], ps[0]);
    }
  }

  /** Entries for `xs` laid down first and kept by a later extension,
      followed by entries for `ys`, are entries for `xs + ys`. */
  lemma ListsGlue(base: nat, m: nat, mid: Skeleton, r: Skeleton, xs: seq<Body>, xps: seq<int>,
                  ys: seq<Body>, yps: seq<int>, zs: seq<Body>, zps: seq<int>)
    requires m == base + |xs|
    requires Lists(mid, base, xs, xps) && Lists(r, m, ys, yps) && Extends(r, mid)
    requires zs == xs + ys && zps == xps + yps
    ensures Lists(r, base, zs, zps)
  {
    ListsExtends(mid, r, base, xs, xps);
    EachAtConcat((j, b, p) => HoldsBody(r, j, b, p), base, xs, xps, ys, yps);
  }

  /** `r` is consistent and is `acc` followed by `n` more entries. */
  predicate Grows(r: Skeleton, acc: Skeleton, n: nat) {
    Consistent(r) && Extends(r, acc) && |r.names| == |acc.names| + n
  }

  /** `dfs(body, parent)`: append `b`, then walk its children in document
      order, each with `b`'s index as parent. What the entries hold is
      stated by `VisitBodyLists`. */
  function VisitBody(b: Body, parent: int, acc: Skeleton): (r: Result<Skeleton>)
    requires Consistent(acc)
    requires if |acc.names| == 0 then parent == -1 else 0 <= parent < |acc.names|
    ensures r.Ok? <==> AllAttributesOk(PreOrder(b))
    ensures r.Ok? ==> Grows(r.value, acc, |PreOrder(b)|)
    decreases b, |b.children| + 1
  {
    AllAttributesOkConcat([b], PreOrderFrom(b, 0));
    var withSelf :- AppendBody(acc, b, parent);
    VisitChildren(b, 0, |acc.names|, withSelf)
  }

  /** The loop `for c in body.findall("body"): dfs(c, idx)` from child `i` on. */
  function VisitChildren(b: Body, i: nat, idx: nat, acc: Skeleton): (r: Result<Skeleton>)
    requires i <= |b.children|
    requires Consistent(acc) && idx < |acc.names|
    ensures r.Ok? <==> AllAttributesOk(PreOrderFrom(b, i))
    ensures r.Ok? ==> Grows(r.value, acc, |PreOrderFrom(b, i)|)
    decreases b, |b.children| - i
  {
    if i == |b.children| then Ok(acc)
    else
      var child := b.children[i];
      AllAttributesOkConcat(PreOrder(child), PreOrderFrom(b, i + 1));
      var afterChild :- VisitBody(child, idx, acc);
      VisitChildren(b, i + 1, idx, afterChild)
  }

  /** What a successful `dfs` is made of: the body's own entry, then the
      child loop from child 0. */
  lemma BodyStep(b: Body, parent: int, acc: Skeleton)
    requires Consistent(acc)
    requires if |acc.names| == 0 then parent == -1 else 0 <= parent < |acc.names|
    requires VisitBody(b, parent, acc).Ok?
    ensures AppendBody(acc, b, parent).Ok?
    ensures var w := AppendBody(acc, b, parent).value;
              && Consistent(w) && |acc.names| < |w.names|
              && Lists(w, |acc.names|, [b], [parent])
              && VisitChildren(b, 0, |acc.names|, w).Ok?
              && VisitBody(b, parent, acc).value == VisitChildren(b, 0, |acc.names|, w).value
              && Extends(VisitBody(b, parent, acc).value, w)
              && |w.names| == |acc.names| + 1
  {
  }

  /** What a successful pass of the child loop is made of: child `i`'s
      subtree, then the loop from child `i + 1`. */
  lemma ChildStep(b: Body, i: nat, idx: nat, acc: Skeleton)
    requires i < |b.children|
    requires Consistent(acc) && idx < |acc.names|
    requires VisitChildren(b, i, idx, acc).Ok?
    ensures VisitBody(b.children[i], idx, acc).Ok?
    ensures var a := VisitBody(b.children[i], idx, acc).value;
              && Consistent(a) && idx < |a.names|
              && |a.names| == |acc.names| + |PreOrder(b.children[i])|
              && VisitChildren(b, i + 1, idx, a).Ok?
              && VisitChildren(b, i, idx, acc).value == VisitChildren(b, i + 1, idx, a).value
              && Extends(VisitChildren(b, i, idx, acc).value, a)
  {
  }

  /** `dfs` appends, from index `|acc.names|` on, the entries of the bodies
      of the subtree in pre-order, each under its parent in the tree. */
  lemma {:induction false} VisitBodyLists(b: Body, parent: int, acc: Skeleton)
    requires Consistent(acc)
    requires if |acc.names| == 0 then parent == -1 else 0 <= parent < |acc.names|
    requires VisitBody(b, parent, acc).Ok?
    ensures Lists(VisitBody(b, parent, acc).value, |acc.names|, PreOrder(b), TreeParents(b, |acc.names|, parent))
    decreases b, |b.children| + 1
  {
    BodyStep(b, parent, acc);
    var withSelf := AppendBody(acc, b, parent).value;
    VisitChildrenLists(b, 0, |acc.names|, withSelf);
    ListsGlue(|acc.names|, |withSelf.names|, withSelf, VisitBody(b, parent, acc).value, [b], [parent],
              PreOrderFrom(b, 0), TreeParentsFrom(b, 0, |acc.names| + 1, |acc.names|),
              PreOrder(b), TreeParents(b, |acc.names|, parent));
  }

  /** The same for the child loop: each child subtree follows the previous
      one and hangs from the body at index `idx`. */
  lemma {:induction false} VisitChildrenLists(b: Body, i: nat, idx: nat, acc: Skeleton)
    requires i <= |b.children|
    requires Consistent(acc) && idx < |acc.names|
    requires VisitChildren(b, i, idx, acc).Ok?
    ensures Lists(VisitChildren(b, i, idx, acc).value, |acc.names|, PreOrderFrom(b, i),
                  TreeParentsFrom(b, i, |acc.names|, idx))
    decreases b, |b.children| - i
  {
    if i < |b.children| {
      var child := b.children[i];
      ChildStep(b, i, idx, acc);
      var afterChild := VisitBody(child, idx, acc).value;
      VisitBodyLists(child, idx, acc);
      VisitChildrenLists(b, i + 1, idx, afterChild);
      FromStep(b, i, |acc.names|, |afterChild.names|, idx);
      ListsGlue(|acc.names|, |afterChild.names|, afterChild, VisitChildren(b, i, idx, acc).value,
                PreOrder(child), TreeParents(child, |acc.names|, idx),
                PreOrderFrom(b, i + 1), TreeParentsFrom(b, i + 1, |afterChild.names|, idx),
                PreOrderFrom(b, i), TreeParentsFrom(b, i, |acc.names|, idx));
    }
  }

  /** `_parse`: walk the first body of `<worldbody>` with parent -1. Entry
      `k` holds the `k`-th body in pre-order under its parent in the tree. */
  function Parse(doc: Document): (r: Result<Skeleton>)
    ensures r.Ok? <==> RootBody(doc).Ok? && AllAttributesOk(PreOrder(RootBody(doc).value))
    ensures r.Ok? ==> WellFormed(r.value)
    ensures r.Ok? ==> |r.value.names| == |PreOrder(RootBody(doc).value)|
    ensures r.Ok? ==> forall k :: 0 <= k < |r.value.names| ==>
              && r.value.names[k] == KinematicName(PreOrder(RootBody(doc).value)[k], k)
              && r.value.jointDofs[k] == DofOf(PreOrder(RootBody(doc).value)[k])
    ensures r.Ok? ==> forall k :: 0 <= k < |r.value.names| ==>
              HoldsBody(r.value, k, PreOrder(RootBody(doc).value)[k], TreeParents(RootBody(doc).value, 0, -1)[k])
  {
    var root :- RootBody(doc);
    var s :- VisitBody(root, -1, Empty);
    VisitBodyLists(root, -1, Empty);
    forall k | 0 <= k < |s.names|
      ensures HoldsBody(s, k, PreOrder(root)[k], TreeParents(root, 0, -1)[k])
    {
      EachAtIndex((j, b, p) => HoldsBody(s, j, b, p), 0, PreOrder(root), TreeParents(root, 0, -1), k);
    }
    Ok(s)
  }

  function Sum(xs: seq<nat>): nat
    decreases |xs|
  {
    if |xs| == 0 then 0 else Sum(xs[..|xs| - 1]) + xs[|xs| - 1]
  }

  /** `num_dof = sum(joint_dofs)`. */
  function NumDof(s: Skeleton): nat {
    Sum(s.jointDofs)
  }

  /** The indices of a 0/1 sequence that hold a one. */
  function Ones(xs: seq<nat>): set<nat> {
    set i: nat | i < |xs| && xs[i] == 1
  }

  /** A sum of zeros and ones counts the ones. */
  lemma {:induction false} SumCountsOnes(xs: seq<nat>)
    requires forall i :: 0 <= i < |xs| ==> xs[i] <= 1
    ensures Sum(xs) == |Ones(xs)|
    decreases |xs|
  {
    if |xs| > 0 {
      var init := xs[..|xs| - 1];
      SumCountsOnes(init);
      var last := |xs| - 1;
      if xs[last] == 1 {
        assert Ones(xs) == Ones(init) + {last};
      } else {
        assert Ones(xs) == Ones(init);
      }
    }
  }

  /** The bodies of a pre-order listing that have exactly one joint. */
  function OneJointBodies(bs: seq<Body>): set<nat> {
    set k: nat | k < |bs| && |bs[k].joints| == 1
  }

  /** `num_dof` is the number of bodies with exactly one `<joint>` child. */
  lemma NumDofCountsOneJointBodies(doc: Document)
    requires Parse(doc).Ok?
    ensures NumDof(Parse(doc).value) == |OneJointBodies(PreOrder(RootBody(doc).value))|
  {
    var s := Parse(doc).value;
    var bodies := PreOrder(RootBody(doc).value);
    SumCountsOnes(s.jointDofs);
    forall k: nat | k < |bodies|
      ensures k in Ones(s.jointDofs) <==> k in OneJointBodies(bodies)
    {
      assert s.jointDofs[k] == DofOf(bodies[k]);
    }
    assert Ones(s.jointDofs) == OneJointBodies(bodies);
  }
}

=== FILE: mjcf.dfy ===
/** The parts of an MJCF robot description the viewer reads, as a tree of
    bodies, and the depth-first pre-order walk both readers of the tree use. */
module Mjcf {
  import opened Wrappers
  import opened Attributes

  /** A `<joint>` element; only its `axis` attribute is read. */
  datatype Joint = Joint(axis: Option<seq<real>>)

  /** A `<geom>` element. */
  datatype Geom = Geom(
    kind: Option<string>,        // attribute `type`
    mesh: Option<string>,        // attribute `mesh`
    pos: Option<seq<real>>,
    quat: Option<seq<real>>,     // scalar-first (w, x, y, z)
    rgba: Option<seq<real>>)

  /** A `<body>` element with its `<joint>`, `<geom>` and nested `<body>`
      children, each list in document order. */
  datatype Body = Body(
    name: Option<string>,
    pos: Option<seq<real>>,
    quat: Option<seq<real>>,     // scalar-first (w, x, y, z)
    joints: seq<Joint>,
    geoms: seq<Geom>,
    children: seq<Body>)

  /** A `<mesh>` element of the `<asset>` section. */
  datatype MeshDecl = MeshDecl(name: Option<string>, file: Option<string>, scale: Option<seq<real>>)

  /** The document: the `meshdir` of `<compiler>` (None when the element or
      the attribute is absent), the `<mesh>` elements of `<asset>` (None when
      there is no `<asset>`), and the `<body>` children of `<worldbody>`
      (None when there is no `<worldbody>`). */
  datatype Document = Document(
    meshdir: Option<string>,
    assets: Option<seq<MeshDecl>>,
    worldbody: Option<seq<Body>>)

  /** `worldbody.find("body")`: the first top-level body; the others are
      never visited. */
  function RootBody(doc: Document): (r: Result<Body>)
    ensures r.Ok? <==> doc.worldbody.Some? && |doc.worldbody.value| > 0
    ensures r.Ok? ==> r.value == doc.worldbody.value[0]
  {
    match doc.worldbody
    case None => Err(MissingElement)
    case Some(bodies) => if |bodies| == 0 then Err(MissingElement) else Ok(bodies[0])
  }

  /** The bodies of the subtree rooted at `b`, in depth-first pre-order:
      the reference order in which both walks visit bodies. */
  function PreOrder(b: Body): (r: seq<Body>)
    ensures |r| >= 1 && r[0] == b
    decreases b, |b.children| + 1
  {
    [b] + PreOrderFrom(b, 0)
  }

  /** Pre-order of the subtrees of `b.children[i..]`, one after another. */
  function PreOrderFrom(b: Body, i: nat): seq<Body>
    requires i <= |b.children|
    decreases b, |b.children| - i
  {
    if i == |b.children| then [] else PreOrder(b.children[i]) + PreOrderFrom(b, i + 1)
  }

  /** The parent index of every body of `PreOrder(b)` when `b` sits at
      pre-order index `base` under the body at index `parent`: `b` has
      `parent`, and each child subtree starts right after the previous one
      and hangs from `base`. */
  function TreeParents(b: Body, base: nat, parent: int): (r: seq<int>)
    ensures |r| == |PreOrder(b)|
    ensures r[0] == parent
    decreases b, |b.children| + 1
  {
    [parent] + TreeParentsFrom(b, 0, base + 1, base)
  }

  /** Parent indices of `PreOrderFrom(b, i)`, laid out from index `idx`;
      `self` is the index of `b`. */
  function TreeParentsFrom(b: Body, i: nat, idx: nat, self: nat): (r: seq<int>)
    requires i <= |b.children|
    ensures |r| == |PreOrderFrom(b, i)|
    decreases b, |b.children| - i
  {
    if i == |b.children| then []
    else TreeParents(b.children[i], idx, self) + TreeParentsFrom(b, i + 1, idx + |PreOrder(b.children[i])|, self)
  }

  /** One step of the child loop: child `i`'s subtree comes first, then
      the remaining children's, in both the listing and the parent indices. */
  lemma FromStep(b: Body, i: nat, idx: nat, next: nat, self: nat)
    requires i < |b.children| && next == idx + |PreOrder(b.children[i])|
    ensures PreOrderFrom(b, i) == PreOrder(b.children[i]) + PreOrderFrom(b, i + 1)
    ensures TreeParentsFrom(b, i, idx, self) ==
              TreeParents(b.children[i], idx, self) + TreeParentsFrom(b, i + 1, next, self)
  {
  }

  /** Where child `i` of `b` sits in `PreOrder(b)`: after `b` and the
      subtrees of the children before it. */
  function ChildOffset(b: Body, i: nat): nat
    requires i <= |b.children|
  {
    PreOrderFromShrinks(b, 0, i);
    1 + |PreOrderFrom(b, 0)| - |PreOrderFrom(b, i)|
  }

  lemma {:induction false} PreOrderFromShrinks(b: Body, j: nat, i: nat)
    requires j <= i <= |b.children|
    ensures |PreOrderFrom(b, i)| <= |PreOrderFrom(b, j)|
    decreases i - j
  {
    if j < i {
      PreOrderFromShrinks(b, j + 1, i);
    }
  }

  lemma {:induction false} ChildInFrom(b: Body, j: nat, i: nat, idx: nat, self: nat)
    requires j <= i < |b.children|
    ensures |PreOrderFrom(b, i)| <= |PreOrderFrom(b, j)|
    ensures PreOrderFrom(b, j)[|PreOrderFrom(b, j)| - |PreOrderFrom(b, i)|] == b.children[i]
    ensures TreeParentsFrom(b, j, idx, self)[|PreOrderFrom(b, j)| - |PreOrderFrom(b, i)|] == self
    decreases i - j
  {
    PreOrderFromShrinks(b, j, i);
    if j < i {
      var c := b.children[j];
      ChildInFrom(b, j + 1, i, idx + |PreOrder(c)|, self);
      var d := |PreOrderFrom(b, j + 1)| - |PreOrderFrom(b, i)|;
      assert PreOrderFrom(b, j)[|PreOrder(c)| + d] == PreOrderFrom(b, j + 1)[d];
      assert TreeParentsFrom(b, j, idx, self)[|PreOrder(c)| + d] ==
             TreeParentsFrom(b, j + 1, idx + |PreOrder(c)|, self)[d];
    }
  }

  /** Every direct child of `b` appears in `PreOrder(b)` with `b`'s own
      index as its parent: the tree edge the parent array records. */
  lemma ChildPointsToParent(b: Body, base: nat, parent: int, i: nat)
    requires i < |b.children|
    ensures ChildOffset(b, i) < |PreOrder(b)|
    ensures PreOrder(b)[ChildOffset(b, i)] == b.children[i]
    ensures TreeParents(b, base, parent)[ChildOffset(b, i)] == base
  {
    ChildInFrom(b, 0, i, base + 1, base);
  }

  /** The name the kinematic model gives the body at pre-order index `idx`:
      its `name` attribute, or `body_{idx}` when it has none. */
  function KinematicName(b: Body, idx: nat): (n: string)
    ensures b.name.None? ==> n == "body_" + Decimal(idx)
    ensures b.name.Some? ==> n == b.name.value
  {
    b.name.GetOr("body_" + Decimal(idx))
  }

  /** Two unnamed bodies never share a default name. */
  lemma DefaultNamesDistinct(a: Body, i: nat, b: Body, j: nat)
    requires a.name.None? && b.name.None? && i != j
    ensures KinematicName(a, i) != KinematicName(b, j)
  {
    DecimalInjective(i, j);
    var p := "body_";
    assert KinematicName(a, i)[|p|..] == Decimal(i);
    assert KinematicName(b, j)[|p|..] == Decimal(j);
  }
}

=== FILE: player.dfy ===
/** `MJCFViserPlayer`: the player's state, `load_anim`, `get_frame`, the
    cursor helpers and the `play` loop. Viewer calls are modelled by their
    effect: `get_frame` returns the pose it pushes to each visual node. */
module Player {
  import opened Wrappers
  import opened Attributes
  import opened Mjcf
  import opened Kinematics
  import opened ForwardKinematics
  import opened VisualGeoms

  /** A robot motion record: root trajectory, joint angles and frame rate. */
  datatype Motion = Motion(rootPos: seq<Vec3>, rootRot: seq<seq<real>>, dofPos: seq<seq<real>>, fps: real)

  /** The pose pushed to one visual node: position and scalar-first quaternion. */
  datatype NodePose = NodePose(position: Vec3, wxyz: seq<real>)

  /** The player's fields: the kinematic model, the names of the bodies
      that have a visual node, the loaded poses, `T`, `fps` and `cur_frame`. */
  datatype PlayerState = PlayerState(
    kin: Skeleton,
    frames: set<string>,
    poses: Option<Poses>,
    T: nat,
    fps: real,
    cur: nat)

  /** What the fields always satisfy: without poses there are no frames;
      with poses there are `T` frames of one pose per body. */
  predicate Inv(p: PlayerState) {
    && WellFormed(p.kin)
    && (p.poses.None? ==> p.T == 0)
    && (p.poses.Some? ==>
          && |p.poses.value.pos| == p.T && |p.poses.value.rot| == p.T
          && forall t :: 0 <= t < p.T ==>
               |p.poses.value.pos[t]| == |p.kin.names| && |p.poses.value.rot[t]| == |p.kin.names|)
  }

  /** `__init__`: parse the kinematic model, then load the visuals; one
      visual node per key of the geometry map. */
  function NewPlayer(doc: Document, scheme: KeyScheme): (r: Result<PlayerState>)
    ensures r.Ok? ==> Inv(r.value)
    ensures r.Ok? ==> r.value.poses.None? && r.value.T == 0 && r.value.cur == 0 && r.value.fps == 30.0
    ensures r.Ok? <==> Parse(doc).Ok? && LoadVisualGeoms(doc, scheme).Ok?
    ensures r.Ok? ==> r.value.kin == Parse(doc).value && r.value.frames == LoadVisualGeoms(doc, scheme).value.Keys
  {
    var kin :- Parse(doc);
    var geoms :- LoadVisualGeoms(doc, scheme);
    Ok(PlayerState(kin, geoms.Keys, None, 0, 30.0, 0))
  }

  /** `pos @ T_ZUP_TO_YUP` and the `R.from_quat(...).as_matrix()` …
      `R.from_matrix(...).as_quat()` round trip of `load_anim`: each
      orientation goes through a rotation object and back (`T_ZUP_TO_YUP`
      is the identity, so positions are kept). */
  function ToViewer<Q>(ops: RotationOps<Q>, poses: Poses): (r: Poses)
    ensures r.pos == poses.pos && |r.rot| == |poses.rot|
    ensures forall t :: 0 <= t < |poses.rot| ==> |r.rot[t]| == |poses.rot[t]|
    ensures forall t, i :: 0 <= t < |poses.rot| && 0 <= i < |poses.rot[t]| ==>
              r.rot[t][i] == ops.asQuat(ops.fromQuat(poses.rot[t][i]))
  {
    Poses(poses.pos,
          seq(|poses.rot|, t requires 0 <= t < |poses.rot| =>
            seq(|poses.rot[t]|, i requires 0 <= i < |poses.rot[t]| => ops.asQuat(ops.fromQuat(poses.rot[t][i])))))
  }

  /** `load_anim`: sets `fps` first, then runs `forward` over the whole
      motion; on success stores the poses, sets `T` and rewinds the cursor.
      A motion with no frames gets through `forward` but not the final
      `reshape(pos.shape[0], -1, 4)`, which cannot infer its free axis when
      the frame count is 0. The second result is the error raised, if any;
      the state returned with it still carries the new `fps`. */
  function LoadAnim<Q>(ops: RotationOps<Q>, p: PlayerState, m: Motion): (r: (PlayerState, Option<Error>))
    requires Inv(p)
    ensures Inv(r.0)
    ensures r.0.kin == p.kin && r.0.frames == p.frames && r.0.fps == m.fps
    ensures r.1.None? <==> ShapesAgree(p.kin, m.rootPos, m.rootRot, m.dofPos) && |m.rootPos| > 0
    ensures ShapesAgree(p.kin, m.rootPos, m.rootRot, m.dofPos) && |m.rootPos| == 0 ==> r.1 == Some(EmptyMotion)
    ensures r.1.None? ==> r.0.T == |m.rootPos| && r.0.T > 0 && r.0.cur == 0 && r.0.poses.Some?
    ensures r.1.None? ==> r.0.poses.value.pos == Forward(ops, p.kin, m.rootPos, m.rootRot, m.dofPos).value.pos
    ensures r.1.None? ==> r.0.poses.value == ToViewer(ops, Forward(ops, p.kin, m.rootPos, m.rootRot, m.dofPos).value)
    ensures r.1.Some? ==> r.0 == p.(fps := m.fps)
  {
    var withFps := p.(fps := m.fps);
    match Forward(ops, p.kin, m.rootPos, m.rootRot, m.dofPos)
    case Err(e) => (withFps, Some(e))
    case Ok(poses) =>
      if |m.rootPos| == 0 then (withFps, Some(EmptyMotion))
      else (withFps.(poses := Some(ToViewer(ops, poses)), T := |m.rootPos|, cur := 0), None)
  }

  /** Bodies among the first `n` whose kinematic name has a visual node. */
  function UpdatedNames(names: seq<string>, frames: set<string>, n: nat): set<string>
    requires n <= |names|
  {
    set i | 0 <= i < n && names[i] in frames :: names[i]
  }

  /** The loop of `get_frame` over the first `n` bodies: a body whose name
      has a visual node sets that node's pose; a later body of the same name
      overwrites an earlier one. */
  function FrameUpdates(names: seq<string>, frames: set<string>, pos: seq<Vec3>, rot: seq<seq<real>>,
                        n: nat): (r: map<string, NodePose>)
    requires n <= |names| && n <= |pos| && n <= |rot|
    ensures r.Keys == UpdatedNames(names, frames, n)
    ensures forall i :: (0 <= i < n && names[i] in frames &&
                         (forall j :: i < j < n ==> names[j] != names[i])) ==>
                r[names[i]] == NodePose(pos[i], Roll(rot[i]))
    decreases n
  {
    if n == 0 then map[]
    else
      var prev := FrameUpdates(names, frames, pos, rot, n - 1);
      var name := names[n - 1];
      assert UpdatedNames(names, frames, n) ==
             UpdatedNames(names, frames, n - 1) + (if name in frames then {name} else {});
      if name in frames then prev[name := NodePose(pos[n - 1], Roll(rot[n - 1]))] else prev
  }

  /** Some body's kinematic name has a visual node. */
  predicate AnyVisual(p: PlayerState) {
    exists i :: 0 <= i < |p.kin.names| && p.kin.names[i] in p.frames
  }

  /** The frame `get_frame` shows: the argument, or the cursor when omitted. */
  function RequestedFrame(p: PlayerState, frame: Option<int>): int {
    frame.GetOr(p.cur as int)
  }

  /** `get_frame(frame)`: the pose pushed to each visual node. Indexing
      `self.pos[frame, i]` happens only for bodies with a node; it fails when
      nothing is loaded or the frame is outside `[-T, T)`; a negative frame
      counts from the end, as numpy does. */
  function GetFrame(p: PlayerState, frame: Option<int>): (r: Result<map<string, NodePose>>)
    requires Inv(p)
    ensures r.Ok? <==> !AnyVisual(p) || (p.poses.Some? && -(p.T as int) <= RequestedFrame(p, frame) < p.T)
    ensures r.Ok? ==> r.value.Keys == UpdatedNames(p.kin.names, p.frames, |p.kin.names|)
    ensures r.Ok? && AnyVisual(p) ==> forall i :: (0 <= i < |p.kin.names| && p.kin.names[i] in p.frames &&
                (forall j :: i < j < |p.kin.names| ==> p.kin.names[j] != p.kin.names[i])) ==>
                var f := RequestedFrame(p, frame);
                var row := if f >= 0 then f else p.T + f;
                r.value[p.kin.names[i]] == NodePose(p.poses.value.pos[row][i], Roll(p.poses.value.rot[row][i]))
  {
    var f := RequestedFrame(p, frame);
    if !AnyVisual(p) then
      assert UpdatedNames(p.kin.names, p.frames, |p.kin.names|) == {};
      Ok(map[])
    else if p.poses.None? then Err(NotLoaded)
    else if !(-(p.T as int) <= f < p.T) then Err(FrameOutOfRange)
    else
      var row := if f >= 0 then f else p.T + f;
      Ok(FrameUpdates(p.kin.names, p.frames, p.poses.value.pos[row], p.poses.value.rot[row], |p.kin.names|))
  }

  /** `get_frame_count()`: zero until an animation is loaded, then the
      number of loaded frames. */
  function GetFrameCount(p: PlayerState): (n: nat)
    requires Inv(p)
    ensures p.poses.None? ==> n == 0
    ensures p.poses.Some? ==> n == |p.poses.value.pos| && n == |p.poses.value.rot|
  {
    p.T
  }

  /** The frame count is the length of the motion the last successful
      `load_anim` read; a failed one leaves it as it was. */
  lemma LoadAnimFrameCount<Q>(ops: RotationOps<Q>, p: PlayerState, m: Motion)
    requires Inv(p)
    ensures var r := LoadAnim(ops, p, m);
            && (r.1.None? ==> GetFrameCount(r.0) == |m.rootPos| && GetFrameCount(r.0) > 0)
            && (r.1.Some? ==> GetFrameCount(r.0) == GetFrameCount(p))
  {
  }

  /** `reset_cur_frame()`: rewinds the cursor and keeps everything else. */
  function ResetCurFrame(p: PlayerState): (r: PlayerState)
    ensures r.cur == 0
    ensures r.(cur := p.cur) == p
  {
    p.(cur := 0)
  }

  /** One pass of the `play` loop with pause `dt`: show the cursor's frame,
      advance, and at `T` either wrap to 0 (looping) or stop. The flag says
      whether the loop goes on; a pass that goes on then sleeps `dt`, which
      raises when `dt` is negative. */
  function Step(p: PlayerState, loop: bool, dt: real): (r: Result<(PlayerState, bool)>)
    requires Inv(p)
    ensures r.Ok? <==> GetFrame(p, Some(p.cur as int)).Ok? && (loop || p.cur + 1 < p.T ==> dt >= 0.0)
    ensures r.Err? && GetFrame(p, Some(p.cur as int)).Ok? ==> r.error == NegativeSleep
    ensures r.Ok? ==> Inv(r.value.0) && r.value.0.(cur := p.cur) == p
    ensures r.Ok? && loop ==> r.value.1 && (p.cur < p.T ==> r.value.0.cur == (p.cur + 1) % p.T)
    ensures r.Ok? && !loop ==> r.value.0.cur == p.cur + 1 && (r.value.1 <==> p.cur + 1 < p.T)
  {
    var _ :- GetFrame(p, Some(p.cur as int));
    var next := p.cur + 1;
    var goesOn := loop || next < p.T;
    var advanced := if next >= p.T && loop then p.(cur := 0) else p.(cur := next);
    if goesOn && dt < 0.0 then Err(NegativeSleep) else Ok((advanced, goesOn))
  }

  /** The frames `lo, lo+1, …, hi-1`. */
  function Frames(lo: nat, hi: nat): (r: seq<nat>)
    requires lo <= hi
    ensures |r| == hi - lo && forall k :: 0 <= k < |r| ==> r[k] == lo + k
  {
    seq(hi - lo, k requires 0 <= k < hi - lo => lo + k)
  }

  lemma FramesCons(lo: nat, hi: nat)
    requires lo < hi
    ensures [lo] + Frames(lo + 1, hi) == Frames(lo, hi)
  {
    forall k | 0 < k < hi - lo
      ensures ([lo] + Frames(lo + 1, hi))[k] == Frames(lo, hi)[k]
    {
      assert ([lo] + Frames(lo + 1, hi))[k] == Frames(lo + 1, hi)[k - 1];
    }
  }

  /** The sign of the pause `1.0 / fps` is the sign of `fps`. */
  lemma PauseSign(fps: real)
    requires fps != 0.0
    ensures 1.0 / fps >= 0.0 <==> fps > 0.0
  {
    assert (1.0 / fps) * fps == 1.0;
  }

  /** The `while` loop of `play(loop=False)` with pause `dt`: the frames
      shown, in order, and the final state. */
  function PlayOnceFrom(p: PlayerState, dt: real): (r: Result<(seq<nat>, PlayerState)>)
    requires Inv(p)
    ensures p.cur < p.T ==> (r.Ok? <==> dt >= 0.0 || p.cur + 1 == p.T)
    ensures r.Ok? && p.cur < p.T ==> r.value.0 == Frames(p.cur, p.T)
    ensures r.Ok? ==> r.value.1.cur == if p.cur < p.T then p.T else p.cur + 1
    ensures r.Ok? ==> Inv(r.value.1) && r.value.1 == p.(cur := r.value.1.cur)
    ensures p.cur >= p.T && AnyVisual(p) ==> r.Err?
    decreases p.T - p.cur
  {
    var step :- Step(p, false, dt);
    if step.1 then
      var rest := PlayOnceFrom(step.0, dt);
      FramesCons(p.cur, p.T);
      Ok(([p.cur] + rest.value.0, rest.value.1))
    else Ok(([p.cur], step.0))
  }

  /** `play(loop=False)`: `dt = 1.0 / fps` is computed before any frame, so
      a zero frame rate raises at once. */
  function PlayOnce(p: PlayerState): (r: Result<(seq<nat>, PlayerState)>)
    requires Inv(p)
    ensures p.fps == 0.0 ==> r == Err(ZeroFrameRate)
    ensures p.fps != 0.0 && p.cur < p.T ==> (r.Ok? <==> p.fps > 0.0 || p.cur + 1 == p.T)
    ensures r.Ok? && p.cur < p.T ==> r.value.0 == Frames(p.cur, p.T)
    ensures r.Ok? ==> r.value.1.cur == if p.cur < p.T then p.T else p.cur + 1
    ensures r.Ok? ==> Inv(r.value.1) && r.value.1 == p.(cur := r.value.1.cur)
    ensures p.cur >= p.T && AnyVisual(p) ==> r.Err?
  {
    if p.fps == 0.0 then Err(ZeroFrameRate)
    else
      PauseSign(p.fps);
      PlayOnceFrom(p, 1.0 / p.fps)
  }

  lemma {:induction false} MulAtLeast(k: nat, t: nat)
    requires k >= 1
    ensures k * t >= t
    decreases k
  {
    if k > 1 {
      MulAtLeast(k - 1, t);
      assert k * t == (k - 1) * t + t;
    }
  }

  /** Euclidean division has a unique remainder. */
  lemma ModOf(x: nat, t: nat, q: nat, a: nat)
    requires t > 0 && a < t && x == q * t + a
    ensures x % t == a
  {
    var q' := x / t;
    var a' := x % t;
    assert x == q' * t + a';
    if q' > q {
      assert (q' - q) * t == a - a';
      MulAtLeast(q' - q, t);
    } else if q > q' {
      assert (q - q') * t == a' - a;
      MulAtLeast(q - q', t);
    }
  }

  /** Advancing and wrapping at `t` is adding one modulo `t`. */
  lemma ModStep(x: nat, t: nat)
    requires t > 0
    ensures (x % t + 1) % t == (x + 1) % t
  {
    var q := x / t;
    var a := x % t;
    assert x == q * t + a;
    if a + 1 < t {
      ModOf(x + 1, t, q, a + 1);
      ModOf(a + 1, t, 0, a + 1);
    } else {
      assert x + 1 == (q + 1) * t;
      ModOf(x + 1, t, q + 1, 0);
      ModOf(a + 1, t, 1, 0);
    }
  }

  /** Prepending the current frame to the frames shown from the next cursor
      gives the frames shown from this one. */
  lemma LoopFramesCons(c: nat, t: nat, shown: seq<nat>, n: nat, last: nat)
    requires t > 0 && c < t && |shown| == n
    requires forall k :: 0 <= k < n ==> shown[k] == ((c + 1) % t + k) % t
    requires last == ((c + 1) % t + n) % t
    ensures forall k :: 0 <= k < n + 1 ==> ([c] + shown)[k] == (c + k) % t
    ensures last == (c + (n + 1)) % t
  {
    ModOf(c, t, 0, c);
    forall k | 0 < k < n + 1
      ensures ([c] + shown)[k] == (c + k) % t
    {
      ModShift(c + 1, k - 1, t);
    }
    ModShift(c + 1, n, t);
  }

  lemma {:induction false} ModShift(x: nat, k: nat, t: nat)
    requires t > 0
    ensures (x % t + k) % t == (x + k) % t
    decreases k
  {
    if k == 0 {
      ModOf(x % t, t, 0, x % t);
    } else {
      ModShift(x, k - 1, t);
      ModStep(x % t + (k - 1), t);
      ModStep(x + (k - 1), t);
    }
  }

  /** The first `n` passes of the `while` loop of `play(loop=True)`, which
      itself never returns, with pause `dt`: the frames shown and the state
      after them. */
  function PlayLoopFrom(p: PlayerState, n: nat, dt: real): (r: Result<(seq<nat>, PlayerState)>)
    requires Inv(p)
    ensures p.cur < p.T ==> (r.Ok? <==> n == 0 || dt >= 0.0)
    ensures r.Ok? && p.cur < p.T ==>
              && |r.value.0| == n
              && (forall k :: 0 <= k < n ==> r.value.0[k] == (p.cur + k) % p.T)
              && r.value.1.cur == (p.cur + n) % p.T
    ensures r.Ok? ==> Inv(r.value.1) && r.value.1 == p.(cur := r.value.1.cur)
    decreases n
  {
    if n == 0 then
      if p.cur < p.T then ModOf(p.cur, p.T, 0, p.cur); Ok(([], p))
      else Ok(([], p))
    else
      var step :- Step(p, true, dt);
      var rest :- PlayLoopFrom(step.0, n - 1, dt);
      if p.cur < p.T then
        LoopFramesCons(p.cur, p.T, rest.0, n - 1, rest.1.cur);
        Ok(([p.cur] + rest.0, rest.1))
      else
        Ok(([p.cur] + rest.0, rest.1))
  }

  /** The first `n` passes of `play(loop=True)`; a zero frame rate raises
      before any of them. */
  function PlayLoop(p: PlayerState, n: nat): (r: Result<(seq<nat>, PlayerState)>)
    requires Inv(p)
    ensures p.fps == 0.0 ==> r == Err(ZeroFrameRate)
    ensures p.fps != 0.0 && p.cur < p.T ==> (r.Ok? <==> n == 0 || p.fps > 0.0)
    ensures r.Ok? && p.cur < p.T ==>
              && |r.value.0| == n
              && (forall k :: 0 <= k < n ==> r.value.0[k] == (p.cur + k) % p.T)
              && r.value.1.cur == (p.cur + n) % p.T
    ensures r.Ok? ==> Inv(r.value.1) && r.value.1 == p.(cur := r.value.1.cur)
  {
    if p.fps == 0.0 then Err(ZeroFrameRate)
    else
      PauseSign(p.fps);
      PlayLoopFrom(p, n, 1.0 / p.fps)
  }
}

=== FILE: wrappers.dfy ===
/** Option and Result types shared by every module, and the error kinds the
    repository raises (as Python exceptions) on malformed inputs. */
module Wrappers {

  datatype Option<+T> = None | Some(value: T) {
    /** The value, or `default` when absent (Python's `dict.get(key, default)`). */
    function GetOr(default: T): T {
      match this
      case Some(v) => v
      case None => default
    }
  }

  /** Why an operation raised instead of returning. */
  datatype Error =
    | MalformedAttribute   // a numeric attribute with the wrong number of values
    | MissingAttribute     // `attrib[key]` on an absent key (KeyError)
    | MissingElement       // `find(...)` returned None and was dereferenced
    | UnknownMesh          // a geom names a mesh asset that was never declared
    | DimensionMismatch    // motion arrays whose shapes do not fit together
    | NotLoaded            // a frame was requested before any animation was loaded
    | FrameOutOfRange      // a frame index outside the loaded animation
    | BroadcastMismatch    // a numpy slice assignment whose shapes do not broadcast
    | ZeroFrameRate        // division by a zero frame rate
    | NotASequence         // `len()` of a zero-dimensional array
    | NegativeSleep        // `time.sleep` with a negative duration (ValueError)
    | EmptyMotion          // `reshape(0, -1, 4)` cannot infer its free axis (ValueError)

  datatype Result<+T> = Ok(value: T) | Err(error: Error) {
    predicate IsFailure() {
      Err?
    }

    function PropagateFailure<U>(): Result<U>
      requires Err?
    {
      Err(error)
    }

    function Extract(): T
      requires Ok?
    {
      value
    }
  }
}
